=== FILE: README.md ===
# Matrix Transform Studio, modelled in Dafny

Matrix Transform Studio warps an image by an affine transform built from
three elementary 2D operations: scale, rotation and shear. It has two
front ends, and the project models the state and logic of both.

**The web studio** (`web/app.js`, module `WebStudio`):
- It keeps one 2x2 block per kind in a dictionary.
- It keeps a user-chosen order for the blocks.
- It folds the blocks into a 3x3 matrix in that order and pivots the result about the image centre.
- It sizes the output canvas from the transformed corners, padded by a quarter of the larger side.
- It shifts the result onto that canvas.
- Sliders rebuild the blocks. Edited blocks push their values back to the sliders when they are in range.
- A hand-written 2x3 matrix can replace the whole composition.
- The preview pans and zooms.

**The desktop tool** (`image_transform_gui.py`, module `TkGui`):
- It composes one fixed chain: translate_back · shear · rotation · scale · translate_to_origin · translate_to_output_center.
- It warps onto a canvas four times the image size.
- It writes the chain's 2x3 part into a text box.
- It reads a hand-written matrix back from that box.
- It pans and zooms with buttons, the wheel, ctrl-scroll, pinch and drag.
- It normalises the rotation gesture's angle into [-180, 180].

The shared foundations:

| module | contents |
|---|---|
| `Wrappers` | Option and Result |
| `Affine` | 3x3 matrices over the reals: product, the `mat3x3Mul` loop, `mat2to3`, application to a point, the closed-form inverse |
| `Canvas` | `computeOutputBounds` and the offset shift |
| `Compose` | the order-aware fold and the centre pivot |
| `Text` | strip, split, replace and whitespace words over `seq<char>` |
| `Display` | the bracketed matrix text both front ends write |

The model uses two kinds of abstraction:
- **Mutable state is a class.** The web page's globals are the fields of `WebStudio.Session`. The Tk object is `TkGui.TransformGui`. Each handler is a method whose `modifies` clause names the fields it changes.
- **Loops are methods.** `Mat3Mul`, `ComputeOutputBounds`, `ComposeOrdered`, `ReadRows` and `NormalizeAngle` are loops. The first four are proved equal to a function that states their result. `NormalizeAngle` states its result in its own contract: in [-180, 180], the same direction up to whole turns, and an angle already in range kept.

Three external operations are parameters:
- Number conversion (`float`, `Number`) is `toNumber: string -> Option<real>`.
- Number formatting (`toFixed(3)`, `{:7.3f}`) is `show: real -> string`.
- The cosine and sine of the rotation angle are the reals `c` and `s`.

## Model

| member | source | states |
|---|---|---|
| Affine.Mat3Mul | web/app.js:61-68 | the triple loop accumulating `a[i][k]*b[k][j]` into a zero matrix returns exactly the product a·b |
| Affine.MulIdentity | web/app.js:61-68 | the identity is a two-sided unit of the product |
| Affine.MulAffine | web/app.js:61-68 | products of matrices with bottom row [0,0,1] keep it; products of linear ones have no translation |
| Affine.ApplyMul | web/app.js:61-68 | mapping a point through a·b is mapping it through b and then a (b affine): the right factor acts first |
| Affine.EmbedBlock | web/app.js:70-74 | `mat2to3` gives a linear matrix whose 2x2 block is the input, and it inverts taking the block of a linear matrix |
| Affine.Translate | image_transform_gui.py:436-440 | a translation matrix is affine with (tx, ty) in its last column |
| Affine.Invert | web/app.js:234-245 | `invertMatrix3x3` is null exactly when the 2x2 determinant has magnitude below 1e-12, otherwise an affine matrix |
| Affine.InvertIsInverse | web/app.js:234-245 | a non-null result of `invertMatrix3x3` on an affine matrix is its two-sided inverse |
| Canvas.Ceil | web/app.js:164-165 | `Math.ceil` gives the least integer at or above x |
| Canvas.SeqMin | web/app.js:155-160 | the running minimum is at most every element and is one of them |
| Canvas.SeqMax | web/app.js:155-160 | the running maximum is at least every element and is one of them |
| Canvas.Bounds | web/app.js:152-168 | minX/minY are the smallest corner coordinates minus the pad; each canvas side is the ceiling of the corner extent plus a pad on both sides: at least that extent and less than one more |
| Canvas.Offset | web/app.js:193 | the offset shift is affine and sends the padded box's top-left corner to the origin |
| Canvas.ComputeOutputBounds | web/app.js:152-168 | the loop over the four corners returns exactly `Bounds(w, h, full)` |
| Canvas.CornersOnCanvas | web/app.js:152-168 | after the offset shift each transformed corner lies on the canvas at least a pad away from its edges |
| Canvas.ImageOnCanvas | web/app.js:152-168 | after the offset shift every point of the image, not just the corners, lies on the canvas at least a pad away from its edges: nothing is clipped |
| Compose.DefaultOrderIsOrder | web/app.js:20 | the initial order lists scale, rotation and shear once each |
| Compose.Chain | web/app.js:186-189 | the fold `combined = mat2to3(M[key])·combined` over the order, from the identity, is linear (no translation, bottom row [0,0,1]) for every order |
| Compose.ChainOfThree | web/app.js:186-189 | for a three-key order the fold is M[order[2]]·M[order[1]]·M[order[0]] |
| Compose.ChainAppliesInOrder | web/app.js:186-189 | a point goes through the block of order[0] first, then order[1], then order[2] |
| Compose.ChainOfIdentities | web/app.js:186-189 | identity blocks fold to the identity, whatever the order |
| Compose.OrderMatters | web/app.js:186-189 | two orders of the same blocks give different matrices (scale x by 2, then a quarter turn, and the reverse) |
| Compose.Pivot | web/app.js:183-190 | `fromOrigin·(combined·toOrigin)` keeps the 2x2 linear part of an affine `combined`: the pivot only moves the translation |
| Compose.PivotAffine | web/app.js:183-190 | `fromOrigin·(combined·toOrigin)` is affine when combined is |
| Compose.TranslateCancel | web/app.js:183-184 | the shifts to and from the centre cancel |
| Compose.PivotOfIdentity | web/app.js:183-190 | pivoting the identity gives the identity |
| Compose.IdentityBlocksGiveIdentity | web/app.js:183-190 | with identity blocks, `full` is the identity for every order |
| Compose.PivotFixesCentre | web/app.js:183-190 | a pivoted linear map leaves the image centre (w/2, h/2) in place |
| Compose.FullFixesCentre | web/app.js:183-190 | the composed and pivoted `full` fixes the image centre for all blocks and every order |
| Compose.ComposeOrdered | web/app.js:186-189 | the compose loop returns the fold `Chain(ms, order)`, and it is linear |
| Compose.PivotAboutCentre | web/app.js:183-190 | the method computes the pivot about (w/2, h/2) |
| Compose.Place | web/app.js:192-194 | the bounds are `Bounds(w, h, full)`; the placed matrix is offset·full; every image point lands on the canvas, a pad from its edges |
| Text.Lead | web/app.js:516 | the count of leading characters to drop is maximal: each of them is dropped and the next is not |
| Text.StripStart | web/app.js:516 | the result is the suffix after the dropped prefix, and it does not start with a dropped character |
| Text.StripEnd | web/app.js:516 | the result is a prefix whose removed tail is all dropped characters, and it does not end with one |
| Text.Strip | image_transform_gui.py:586 | `strip`/`trim` return the infix that starts after the maximal leading dropped run and is followed only by dropped characters; it is empty exactly when every character is dropped, else neither end is dropped |
| Text.Remove | web/app.js:516 | `replace(/[\[\]]/g, '')` keeps exactly the characters that are not dropped, never growing the text |
| Text.RemoveAppend | web/app.js:516 | deleting characters distributes over concatenation |
| Text.Split | image_transform_gui.py:586 | `split('\n')` gives at least one piece and no piece holds the separator |
| Text.SplitJoin | web/app.js:397 | splitting lines joined with a separator none of them holds gives the lines back |
| Text.JoinSplit | image_transform_gui.py:586 | joining the pieces with the separator gives the text back |
| Text.Token | image_transform_gui.py:593 | a token is the longest whitespace-free prefix |
| Text.Words | image_transform_gui.py:593 | `split()` with no argument gives non-empty whitespace-free words; `Text.WordsCons` and `Text.WordsSkipSpaces` pin down how the text is cut |
| Text.WordsCons | image_transform_gui.py:593 | whitespace, then a word, then whitespace or the end: the word is the first word and the rest follow |
| Text.WordsSkipSpaces | image_transform_gui.py:593 | leading whitespace does not change the words |
| Text.WordsKeepText | image_transform_gui.py:593 | the words, run together, are exactly the text with its whitespace deleted, in order |
| Text.NonBlank | image_transform_gui.py:586 | every kept line is stripped and not blank, and there are no more lines than before |
| Text.NonBlankOne | image_transform_gui.py:586 | one line gives its stripped text, or nothing when it strips to empty |
| Text.NonBlankAppend | image_transform_gui.py:586 | the filter distributes over concatenation; with NonBlankOne the result is exactly the stripped non-blank lines in their order |
| Text.SplitAt | web/app.js:516 | a text cut at its first separator splits into the piece before it and the pieces after |
| Display.RowText | web/app.js:393-394 | a row is three cells of two spaces and the right-aligned value; values that fit the width end at columns width+2, 2(width+2) and 3(width+2) |
| Display.Frame | web/app.js:391-397 | the text is the lines "[", the two rows and "]" joined with line feeds: split at line feeds it gives exactly those four lines when the rows hold none |
| Display.MatrixText | image_transform_gui.py:572-579 | when every value shows as a plain word, the text has four lines, "[", the first row's three values as words, the second row's, and "]" |
| Display.PadStart | web/app.js:393-394 | `padStart` right-aligns the value in `width` columns with spaces, never truncating |
| Display.RowFacts | web/app.js:393-394 | a written row has no bracket or line feed, is not blank, and its words are its three shown values |
| Display.SplitFrame | web/app.js:397 | the framed rows split at line feeds into an empty piece, the two rows and an empty piece |
| Display.ShownExactly | web/app.js:393-394 | values written exactly read back as the matrix itself |
| WebStudio.SliderBlock | web/app.js:104-118 | `buildMatrixFromSliders(key)` gives the identity exactly when that kind's sliders are at rest (scale 1, angle 0, shear 0) |
| WebStudio.SliderBlocks | web/app.js:104-118 | the blocks rebuilt from the sliders hold all three keys |
| WebStudio.SliderBlocksByKind | web/app.js:179-181 | each rebuilt block is the one `buildMatrixFromSliders` gives for its own key |
| WebStudio.ResetBlocks | web/app.js:608-610 | the reset blocks are the identity for every key and equal the blocks the reset sliders describe |
| WebStudio.SyncedSliders | web/app.js:120-138 | after back-sync, a scale or shear slider equals its matrix entry when in range and keeps its value otherwise; the other sliders are untouched |
| WebStudio.SyncOfBuiltBlock | web/app.js:104-138 | syncing the block the sliders describe leaves in-range sliders unchanged |
| WebStudio.BuildOfSyncedBlock | web/app.js:104-138 | rebuilding after back-sync returns an edited block of the right shape with entries in range |
| WebStudio.SyncIgnoresOutOfRange | web/app.js:122-137 | each of the four scale and shear sliders keeps its position when its own entry is out of range |
| WebStudio.Swap | web/app.js:446-447 | the destructuring swap exchanges the two positions and leaves the others alone |
| WebStudio.SwapPermutes | web/app.js:446-447 | a swap keeps the multiset of entries |
| WebStudio.SwapTwice | web/app.js:446-447 | swapping twice restores the order |
| WebStudio.Moved | web/app.js:443-450 | `moveOrder` swaps the entry at index with its neighbour in the direction when that neighbour exists, and otherwise leaves the order; the length and the multiset of kinds are kept |
| WebStudio.MoveUndo | web/app.js:443-450 | moving an entry up and then down restores the order |
| WebStudio.ParseRow | web/app.js:518-522 | a row is accepted exactly when it has three words that each convert to a number, and then gives those numbers |
| WebStudio.ParseCombined | web/app.js:513-523 | an accepted text gives an affine matrix |
| WebStudio.ParseCombinedCases | web/app.js:513-523 | the text is refused for not having two lines exactly when it does not; it is refused for a bad row exactly when one of the two lines is not three numbers; accepted rows hold the converted values |
| WebStudio.MatrixLines | web/app.js:516 | every line kept from the combined-matrix text is non-empty with no whitespace at either end; on the written text they are the two stripped rows (FrameLines) |
| WebStudio.RemoveFrame | web/app.js:516 | deleting the brackets from the written text leaves its line feeds and the two rows |
| WebStudio.FrameLines | web/app.js:516 | the lines the parser finds in the written text are its two rows, stripped |
| WebStudio.DisplayParses | web/app.js:389-398 | the text `updateCombinedMatrixDisplay` writes parses back to the matrix of the values shown |
| WebStudio.DisplayRoundTrip | web/app.js:389-398 | when every value is written exactly, parsing the written text gives the same matrix back |
| WebStudio.Session.constructor | web/app.js:12-29 | the page starts with identity blocks, the default order, the identity combined matrix, zoom 1 and no image |
| WebStudio.Session.Recompose | web/app.js:205-227 | the shown matrix and canvas are the current blocks folded over the order, pivoted and placed |
| WebStudio.Session.ShowPlaced | web/app.js:192-194 | the shown matrix and canvas are the given matrix placed on its bounds |
| WebStudio.Session.ApplyTransform | web/app.js:170-203 | with an image, all three blocks are rebuilt from the sliders and the rendering is their placed, pivoted fold; without one, nothing changes |
| WebStudio.Session.ApplyFromMatrices | web/app.js:205-227 | with an image, the rendering is the current blocks' placed, pivoted fold; without one, nothing changes |
| WebStudio.Session.MoveSliders | web/app.js:480-496 | the sliders take their new positions; with an image, the blocks are rebuilt from them and re-rendered; without one, the blocks, the combined matrix and the canvas size stay |
| WebStudio.Session.MoveOrder | web/app.js:443-450 | the order becomes `Moved(order, index, direction)` and stays a permutation; a move past either end changes nothing; otherwise, with an image, the studio re-renders from the sliders, and without one the blocks, the combined matrix and the canvas size stay |
| WebStudio.Session.ApplyBlock | web/app.js:499-510 | a block that fails to parse changes nothing; otherwise it replaces its key, the sliders follow it where in range, and with an image the studio recomposes; without one, the combined matrix and the canvas size stay |
| WebStudio.Session.ApplyCombined | web/app.js:513-535 | a refused text, or no image, changes nothing; otherwise the parsed matrix is placed with every image point on the canvas; blocks, order and sliders stay |
| WebStudio.Session.ApplyParsed | web/app.js:523-531 | the handler's tail: an error or no image changes nothing; an accepted matrix is placed on its bounds |
| WebStudio.Session.SetZoomLevel | web/app.js:585-590 | a zoom in [0.1, 10] is taken and any other is ignored, so the range is kept |
| WebStudio.Session.ZoomIn | web/app.js:544 | the zoom times 1.25 when in range, else unchanged |
| WebStudio.Session.ZoomOut | web/app.js:545 | the zoom times 0.8 when in range, else unchanged |
| WebStudio.Session.Wheel | web/app.js:569-574 | with an image, the zoom goes up 5% for a negative deltaY and down 5% otherwise, within range; without one, nothing changes |
| WebStudio.Session.PresetZoom | web/app.js:547-553 | a percentage button sets the zoom as given and clears the pan |
| WebStudio.Session.MouseDown | web/app.js:556-558 | the main button starts a drag at the pointer; other buttons change nothing |
| WebStudio.Session.MouseMove | web/app.js:559-565 | while dragging with an image, the pan grows by the pointer's displacement and the drag restarts at the pointer; otherwise nothing changes |
| WebStudio.Session.MouseUp | web/app.js:566-567 | mouseup and mouseleave end the drag |
| WebStudio.Session.ResetView | web/app.js:592-595 | no pan, zoom 1 |
| WebStudio.Session.ResetTransform | web/app.js:597-611 | sliders, order, blocks and combined matrix return to their initial values |
| WebStudio.Session.ResetAll | web/app.js:597-626 | the transform state is reset; with an image, the original is shown at its own size and the view is reset; the image and the drag are kept |
| WebStudio.Session.OpenImage | web/app.js:459-468 | a loaded image becomes the original and is shown at its own size; sliders, order, blocks and combined matrix are reset; the view is reset to no pan and zoom 1; the drag state is kept |
| WebStudio.ResetComposesToIdentity | web/app.js:597-611 | after a reset the pivoted fold of the blocks over the default order is the identity |
| TkGui.ToOutputCentre | image_transform_gui.py:434-440 | translate_to_output_center is affine; what it does to a point is proved in `TkGui.CompositeApplies` and `TkGui.CentreToCentre` |
| TkGui.ToOrigin | image_transform_gui.py:442-447 | translate_to_origin is affine; its effect is proved in `TkGui.CompositeApplies` and `TkGui.CentreToCentre` |
| TkGui.BackToCentre | image_transform_gui.py:472-477 | translate_back is affine; its effect is proved in `TkGui.CompositeApplies` and `TkGui.NeutralComposite` |
| TkGui.ScaleMatrix | image_transform_gui.py:449-454 | scale_matrix is linear; its place in the chain is proved in `TkGui.CompositeApplies` |
| TkGui.RotationMatrix | image_transform_gui.py:456-463 | rotation_matrix is linear; its place in the chain is proved in `TkGui.CompositeApplies` |
| TkGui.ShearMatrix | image_transform_gui.py:465-470 | shear_matrix is linear; its place in the chain is proved in `TkGui.CompositeApplies` |
| TkGui.Composite | image_transform_gui.py:480 | the chain's linear part is shear·rotation·scale: the three translations only move it |
| TkGui.CompositeAffine | image_transform_gui.py:479-480 | the chain has bottom row [0,0,1] |
| TkGui.ChainOf | image_transform_gui.py:479-480 | the five products evaluated left to right give the chain, which is affine |
| TkGui.CompositeApplies | image_transform_gui.py:478-480 | the chain acts on a point right to left: to the output centre, to the origin, scale, rotation, shear, back |
| TkGui.CentreToCentre | image_transform_gui.py:428-480 | for every slider setting the source centre (w/2, h/2) lands on (2w, 2h), the centre of the 4w-by-4h canvas |
| TkGui.NeutralComposite | image_transform_gui.py:428-480 | with scale 1, rotation 0 and shear 0 the chain is the translation by (1.5w, 1.5h) |
| TkGui.ExtremeSlidersLeaveCanvas | image_transform_gui.py:123-207 | at the slider maxima (scale 3, shear 2, no rotation) the corner (w, h) lands beyond the right or bottom edge of the 4w-by-4h canvas |
| TkGui.CustomWarp | image_transform_gui.py:619 | `self.transform_matrix @ translate_to_output_center` maps a point as the typed matrix maps it shifted by (1.5w, 1.5h), and is affine when the typed matrix is |
| TkGui.ReappliedShiftsTwice | image_transform_gui.py:599-617 | applying the shown neutral matrix unchanged puts the source centre at (3.5w, 3.5h) rather than (2w, 2h), because the centring shift is added again |
| TkGui.Floats | image_transform_gui.py:593 | the word list converts exactly when every word is a number, and then gives each word's value in order |
| TkGui.LineValues | image_transform_gui.py:593-595 | with the brackets deleted and the line split at whitespace, the line is accepted exactly when it has three words that all convert to numbers, and then its values are those numbers in order; a refused line is refused for its contents, not for the line count |
| TkGui.CustomLines | image_transform_gui.py:586 | every line kept from the box is non-empty with no whitespace at either end; on the written text they are the two stripped rows (ShownLines) |
| TkGui.Rows | image_transform_gui.py:591-596 | accepted lines give one row of three values per line |
| TkGui.MatrixOfLines | image_transform_gui.py:588-600 | an accepted pair of lines gives a matrix with bottom row [0,0,1] |
| TkGui.CustomMatrix | image_transform_gui.py:584-600 | an accepted text gives a matrix with bottom row [0,0,1] |
| TkGui.LinesCases | image_transform_gui.py:588-600 | refused for the line count exactly when there are not two lines; accepted exactly when both lines are; a bad first line decides the error; the rows are the lines' values |
| TkGui.CustomMatrixCases | image_transform_gui.py:584-600 | the same cases, for the text as read from the box |
| TkGui.ReadRows | image_transform_gui.py:591-596 | the line loop returns `Rows(lines)`: every line's values, or the first bad line's error |
| TkGui.ReadMatrixLines | image_transform_gui.py:588-600 | the checks after the split return `MatrixOfLines(lines)` |
| TkGui.StripBracketed | image_transform_gui.py:586 | a bracketed text with a trailing line feed strips back to what the brackets hold |
| TkGui.ShownInner | image_transform_gui.py:572-586 | stripping the written text, as the box returns it, leaves the two rows between line feeds |
| TkGui.ShownLines | image_transform_gui.py:572-586 | the lines found in the written text are its two rows, stripped |
| TkGui.LineReadsAs | image_transform_gui.py:593-596 | a plain line of three convertible words reads as their three numbers |
| TkGui.LinesReadAs | image_transform_gui.py:584-600 | two such lines read as the matrix of their numbers |
| TkGui.DisplayReadsBack | image_transform_gui.py:572-600 | the text `update_matrix_display` writes, returned by the box with its trailing line feed, reads as the matrix of the shown values |
| TkGui.DisplayRoundTrip | image_transform_gui.py:572-600 | when every value is written exactly, the shown matrix reads back as itself |
| TkGui.ZoomedIn | image_transform_gui.py:328-333 | the zoom times 1.25 is taken when at most 10 and discarded otherwise; the range [0.1, 10] is kept |
| TkGui.ZoomedOut | image_transform_gui.py:335-340 | the zoom times 0.8 is taken when at least 0.1 and discarded otherwise; the range is kept |
| TkGui.Zoomed | image_transform_gui.py:698-701 | a candidate zoom is taken exactly when it lies in [0.1, 10]; the range is kept |
| TkGui.WheelFactor | image_transform_gui.py:691-696 | 1.05 exactly for button 4 or a positive delta; 0.95 exactly for button 5 or a negative delta otherwise |
| TkGui.CtrlFactor | image_transform_gui.py:708-713 | 1.15 exactly for a positive delta, 0.85 exactly for a negative one |
| TkGui.DragOffset | image_transform_gui.py:665-683 | each drag adds its step from the previous pointer position, so over a press and any run of drags the offset grows by the last pointer position minus the press point |
| TkGui.NormalizeAngle | image_transform_gui.py:753-757 | the two loops give an angle in [-180, 180] that differs from the input by whole turns; an angle already in range is kept |
| TkGui.TransformGui.constructor | image_transform_gui.py:23-36 | no image, identity matrix, neutral sliders, home view, drag origin (0, 0) |
| TkGui.TransformGui.ApplyTransform | image_transform_gui.py:420-499 | without an image nothing changes; with one the stored and shown matrix is the chain of the sliders and the image on show is the original warped by it onto a 4w-by-4h canvas |
| TkGui.TransformGui.ShowWarped | image_transform_gui.py:480-497 | the product is stored and shown, and the original is warped by it onto the 4w-by-4h canvas |
| TkGui.TransformGui.MoveSliders | image_transform_gui.py:413-418 | the sliders move; with an image the chain of the new values is applied |
| TkGui.TransformGui.ApplyCustomMatrix | image_transform_gui.py:581-634 | the result is `CustomMatrix(content)`; a refused text changes nothing; an accepted matrix is stored, and with an image the original is warped by matrix·translate_to_output_center; the text box is not rewritten |
| TkGui.TransformGui.UseCustomMatrix | image_transform_gui.py:599-627 | the accepted matrix is stored; with an image the image on show is the original warped by it after the centring shift |
| TkGui.TransformGui.ResetView | image_transform_gui.py:720-726 | no pan, zoom 1 |
| TkGui.TransformGui.ResetAll | image_transform_gui.py:645-658 | neutral sliders and the identity matrix; with an image the original is on show, the view is reset and the box shows the identity; without one, those stay |
| TkGui.TransformGui.ImageLoaded | image_transform_gui.py:361-376 | a read image becomes the original, an unwarped copy is on show, and everything is reset |
| TkGui.TransformGui.LoadFailed | image_transform_gui.py:363-366 | an unreadable file clears the original while the image on show stays |
| TkGui.TransformGui.ZoomIn | image_transform_gui.py:328-333 | the view's zoom becomes `ZoomedIn` of the old one; the pan is kept |
| TkGui.TransformGui.ZoomOut | image_transform_gui.py:335-340 | the view's zoom becomes `ZoomedOut` of the old one; the pan is kept |
| TkGui.TransformGui.SetZoom | image_transform_gui.py:342-347 | the given level, with the pan cleared |
| TkGui.TransformGui.MouseWheel | image_transform_gui.py:685-701 | without an image or a direction nothing changes; otherwise the zoom is `Zoomed` by the wheel factor |
| TkGui.TransformGui.CtrlScroll | image_transform_gui.py:703-718 | without an image or with a zero delta nothing changes; otherwise the zoom is `Zoomed` by the ctrl factor |
| TkGui.TransformGui.Magnify | image_transform_gui.py:728-741 | without an image nothing changes; otherwise the zoom is `Zoomed` by 1 + delta |
| TkGui.TransformGui.MousePress | image_transform_gui.py:660-663 | the drag starts at the pointer |
| TkGui.TransformGui.MouseDrag | image_transform_gui.py:665-683 | without an image nothing changes; otherwise the pan moves by the pointer's displacement and the drag restarts at the pointer |
| TkGui.TransformGui.RotateGesture | image_transform_gui.py:743-759 | without an image nothing changes; otherwise only the rotation changes, to the angle the two loops give for the old angle plus the delta: in [-180, 180], the same direction, the sum itself when already in range, 180 (not -180) for a sum above 180 that lands on the boundary, and -180 for one below -180 |
| TkGui.TransformGui.ResetScale | image_transform_gui.py:635-638 | both scale variables become 1 and nothing else changes; the chain is not re-applied |
| TkGui.TransformGui.SetRotation | image_transform_gui.py:640-643 | the rotation variable becomes the preset angle and nothing else changes; the chain is not re-applied |

## Left out

- Pixels are left out. This covers `warpAffine` in both front ends (inverse mapping and bilinear sampling in `web/app.js`, OpenCV in the desktop tool), colour conversion, saving, the preview drawing and the grid. A shown image is modelled by its size and the matrix it was warped with.
- The DOM, the Tk widgets, file dialogs, message boxes, `alert` and `print` are left out. The handlers are methods called with the values the widgets would deliver.
- `parseExpr` in `web/app.js` is left out: it evaluates a cell as a JavaScript expression. `WebStudio.Session.ApplyBlock` takes the parsed block, or None when a cell fails to parse.
- Number conversion (`float`, `Number`) is a parameter, `toNumber`. So is number formatting (`toFixed(3)`, `{:7.3f}`, `formatVal`), as `show`. Their rounding is therefore not modelled. `DisplayReadsBack` and `DisplayParses` read back the shown values, not the exact ones.
- Trigonometry is left out:
  - The web rotation slider is held as the cosine and sine of its angle.
  - The desktop chain takes the cosine and sine as parameters.
  - `math.radians`, `Math.cos` and `Math.sin` are therefore not modelled.
- The rotation branch of `syncSlidersFromMatrix` (`atan2`) is left out. `WebStudio.SyncedSliders` leaves the rotation slider unchanged for that key.
- Numbers are reals, not IEEE doubles: rounding, NaN and infinities are not modelled.
- `computeOutputBounds` starts its running extremes from the first corner instead of ±Infinity. With four corners the result is the same.
- Whitespace is space, tab, line feed, vertical tab, form feed and carriage return. Python's `strip`/`split` also treat the ASCII separators \x1c to \x1f and other Unicode spaces as whitespace, and JavaScript's `trim`/`\s` accept other Unicode spaces. The model does not.
- `WebStudio.Session.PresetZoom` has no range check: the percentage buttons set the zoom without one in the source too. Neither has `TkGui.TransformGui.SetZoom`: `set_zoom` (`image_transform_gui.py` lines 342-347) sets the given level unchecked. `ZoomInRange` is preserved by every other zoom handler of both front ends, not by these two.
- Setting a Tk variable from code (`self.rotation.set(...)` and the like) is taken not to run the slider's `command`, which Tk runs only when the user moves the slider or the widget's own `set` is called. So `TkGui.TransformGui.RotateGesture`, `ResetAll`, `ResetScale` and `SetRotation` change the slider values without applying the chain again. Only `MoveSliders`, the slider command, applies it.
- `load_image` has other failure points besides an unreadable file: an exception from colour conversion, for instance. Only the `None` result of `imread` is modelled, as `TkGui.TransformGui.LoadFailed`.
- `create_sample_image.py` is not part of this model.
- The web studio's `applyTransform` rebuilds all three blocks from the sliders whenever a slider moves or the order changes. A block edited by hand is therefore replaced on the next slider move or reorder.
- SyncOfBuiltBlock: assumes that writing a value into a slider (`$('#scale-x').value = sx` and the like, `web/app.js` lines 124-136) keeps it exactly. A range input rounds a written value to its step, and the page's markup, which sets the step, is not part of this model.
- BuildOfSyncedBlock: makes the same assumption, that a value written into a slider is kept exactly rather than rounded to the slider's step.
- WebStudio.Session.constructor: starts the sliders at `ResetSliders` (scale 1, angle 0, shear 0). The globals of `web/app.js` lines 12-29 do not set the sliders. Their starting positions come from the page markup, which is not part of this model.

=== FILE: affine.dfy ===
/**
 * Homogeneous 3x3 matrices over the reals: the algebra both front-ends are
 * built on (web/app.js mat3x3Mul, mat2to3, invertMatrix3x3; the numpy `@`
 * chains of image_transform_gui.py).
 */
module Affine {
  import opened Wrappers

  /** A 3x3 matrix, stored row by row as the source's nested arrays are. */
  type Matrix3 = m: seq<seq<real>> | |m| == 3 && |m[0]| == 3 && |m[1]| == 3 && |m[2]| == 3
    witness [[1.0, 0.0, 0.0], [0.0, 1.0, 0.0], [0.0, 0.0, 1.0]]

  /** The 2x2 linear block of one elementary transform. */
  type Matrix2 = m: seq<seq<real>> | |m| == 2 && |m[0]| == 2 && |m[1]| == 2
    witness [[1.0, 0.0], [0.0, 1.0]]

  datatype Point = Point(x: real, y: real)

  const Identity: Matrix3 := [[1.0, 0.0, 0.0], [0.0, 1.0, 0.0], [0.0, 0.0, 1.0]]

  const Identity2: Matrix2 := [[1.0, 0.0], [0.0, 1.0]]

  /** An affine matrix keeps the homogeneous bottom row [0, 0, 1]. */
  predicate IsAffine(m: Matrix3) {
    m[2] == [0.0, 0.0, 1.0]
  }

  /** A linear matrix is affine and has no translation column. */
  predicate IsLinear(m: Matrix3) {
    IsAffine(m) && m[0][2] == 0.0 && m[1][2] == 0.0
  }

  /** Row i of `a` times column j of `b`. */
  function Entry(a: Matrix3, b: Matrix3, i: nat, j: nat): real
    requires i < 3 && j < 3
  {
    a[i][0] * b[0][j] + a[i][1] * b[1][j] + a[i][2] * b[2][j]
  }

  /** The matrix product a·b (apply b first, then a). */
  function Mul(a: Matrix3, b: Matrix3): Matrix3 {
    [[Entry(a, b, 0, 0), Entry(a, b, 0, 1), Entry(a, b, 0, 2)],
     [Entry(a, b, 1, 0), Entry(a, b, 1, 1), Entry(a, b, 1, 2)],
     [Entry(a, b, 2, 0), Entry(a, b, 2, 1), Entry(a, b, 2, 2)]]
  }

  /** Translation by (tx, ty). */
  function Translate(tx: real, ty: real): (t: Matrix3)
    ensures IsAffine(t) && t[0][2] == tx && t[1][2] == ty
  {
    [[1.0, 0.0, tx], [0.0, 1.0, ty], [0.0, 0.0, 1.0]]
  }

  /** mat2to3: place a 2x2 block in the top-left corner of a 3x3 matrix. */
  function Embed(m: Matrix2): Matrix3 {
    [[m[0][0], m[0][1], 0.0], [m[1][0], m[1][1], 0.0], [0.0, 0.0, 1.0]]
  }

  /** The top-left 2x2 block of a 3x3 matrix. */
  function Block(m: Matrix3): Matrix2 {
    [[m[0][0], m[0][1]], [m[1][0], m[1][1]]]
  }

  /** One row of an affine map: a*x + c*y + t. */
  function Form(a: real, c: real, t: real, x: real, y: real): real {
    a * x + c * y + t
  }

  /** Maps the point (x, y, 1) through the first two rows of `m`. */
  function Apply(m: Matrix3, p: Point): Point {
    Point(Form(m[0][0], m[0][1], m[0][2], p.x, p.y), Form(m[1][0], m[1][1], m[1][2], p.x, p.y))
  }

  function Abs(x: real): real {
    if x < 0.0 then -x else x
  }

  /**
   * mat3x3Mul: the triple loop that accumulates a[i][k]*b[k][j] into a
   * zero-initialised result.
   */
  method Mat3Mul(a: Matrix3, b: Matrix3) returns (r: Matrix3)
    ensures r == Mul(a, b)
  {
    var acc: seq<seq<real>> := [[0.0, 0.0, 0.0], [0.0, 0.0, 0.0], [0.0, 0.0, 0.0]];
    for i := 0 to 3
      invariant |acc| == 3 && |acc[0]| == 3 && |acc[1]| == 3 && |acc[2]| == 3
      invariant forall p, q {:trigger acc[p][q]} :: 0 <= p < 3 && 0 <= q < 3 ==> acc[p][q] == Progress(a, b, p, q, i, 0, 0)
    {
      for j := 0 to 3
        invariant |acc| == 3 && |acc[0]| == 3 && |acc[1]| == 3 && |acc[2]| == 3
        invariant forall p, q {:trigger acc[p][q]} :: 0 <= p < 3 && 0 <= q < 3 ==> acc[p][q] == Progress(a, b, p, q, i, j, 0)
      {
        for k := 0 to 3
          invariant |acc| == 3 && |acc[0]| == 3 && |acc[1]| == 3 && |acc[2]| == 3
          invariant forall p, q {:trigger acc[p][q]} :: 0 <= p < 3 && 0 <= q < 3 ==> acc[p][q] == Progress(a, b, p, q, i, j, k)
        {
          acc := acc[i := acc[i][j := acc[i][j] + a[i][k] * b[k][j]]];
        }
        PartialEntryComplete(a, b, i, j);
      }
    }
    r := acc;
    ProductByEntries(a, b, r);
  }

  /** A matrix whose every cell is the row-by-column entry is the product. */
  lemma ProductByEntries(a: Matrix3, b: Matrix3, r: Matrix3)
    requires forall p, q :: 0 <= p < 3 && 0 <= q < 3 ==> r[p][q] == Entry(a, b, p, q)
    ensures r == Mul(a, b)
  {
    CellwiseEqual(r, Mul(a, b));
  }

  /** Two matrices that agree in every cell are equal. */
  lemma CellwiseEqual(x: Matrix3, y: Matrix3)
    requires forall p, q :: 0 <= p < 3 && 0 <= q < 3 ==> x[p][q] == y[p][q]
    ensures x == y
  {
    assert x[0] == y[0] && x[1] == y[1] && x[2] == y[2];
  }

  /**
   * The value of result cell (p, q) once the loops of Mat3Mul have reached
   * cell (i, j) and summed k of its products: finished cells hold their
   * entry, later cells are still zero.
   */
  function Progress(a: Matrix3, b: Matrix3, p: nat, q: nat, i: nat, j: nat, k: nat): real
    requires p < 3 && q < 3 && k <= 3
  {
    if p < i || (p == i && q < j) then Entry(a, b, p, q)
    else if p == i && q == j then PartialEntry(a, b, p, q, k)
    else 0.0
  }

  /** The sum of the first k products of row i of `a` and column j of `b`. */
  function PartialEntry(a: Matrix3, b: Matrix3, i: nat, j: nat, k: nat): real
    requires i < 3 && j < 3 && k <= 3
  {
    if k == 0 then 0.0 else PartialEntry(a, b, i, j, k - 1) + a[i][k - 1] * b[k - 1][j]
  }

  /** Summing all three products gives the entry. */
  lemma PartialEntryComplete(a: Matrix3, b: Matrix3, i: nat, j: nat)
    requires i < 3 && j < 3
    ensures PartialEntry(a, b, i, j, 3) == Entry(a, b, i, j)
  {
    assert PartialEntry(a, b, i, j, 1) == a[i][0] * b[0][j];
    assert PartialEntry(a, b, i, j, 2) == a[i][0] * b[0][j] + a[i][1] * b[1][j];
  }

  /** Multiplying by the identity on either side returns the other operand. */
  lemma MulIdentity(m: Matrix3)
    ensures Mul(Identity, m) == m
    ensures Mul(m, Identity) == m
  {
    CellwiseEqual(Mul(Identity, m), m);
    CellwiseEqual(Mul(m, Identity), m);
  }

  /** Products of affine matrices are affine; products of linear ones are linear. */
  lemma MulAffine(a: Matrix3, b: Matrix3)
    ensures IsAffine(a) && IsAffine(b) ==> IsAffine(Mul(a, b))
    ensures IsLinear(a) && IsLinear(b) ==> IsLinear(Mul(a, b))
  {
    if IsAffine(a) && IsAffine(b) {
      assert Mul(a, b)[2] == [Entry(a, b, 2, 0), Entry(a, b, 2, 1), Entry(a, b, 2, 2)];
    }
  }

  /**
   * Mapping a point through a·b is mapping it through b and then through a,
   * when b keeps the homogeneous coordinate at 1.
   */
  lemma ApplyMul(a: Matrix3, b: Matrix3, p: Point)
    requires IsAffine(b)
    ensures Apply(Mul(a, b), p) == Apply(a, Apply(b, p))
  {
    var m := Mul(a, b);
    assert m[0][0] == Dot3(a[0][0], a[0][1], a[0][2], b[0][0], b[1][0], b[2][0]);
    assert m[0][1] == Dot3(a[0][0], a[0][1], a[0][2], b[0][1], b[1][1], b[2][1]);
    assert m[0][2] == Dot3(a[0][0], a[0][1], a[0][2], b[0][2], b[1][2], b[2][2]);
    assert m[1][0] == Dot3(a[1][0], a[1][1], a[1][2], b[0][0], b[1][0], b[2][0]);
    assert m[1][1] == Dot3(a[1][0], a[1][1], a[1][2], b[0][1], b[1][1], b[2][1]);
    assert m[1][2] == Dot3(a[1][0], a[1][1], a[1][2], b[0][2], b[1][2], b[2][2]);
    ComposeRow(a[0][0], a[0][1], a[0][2], b[0][0], b[0][1], b[0][2], b[1][0], b[1][1], b[1][2],
               b[2][0], b[2][1], b[2][2], p.x, p.y);
    ComposeRow(a[1][0], a[1][1], a[1][2], b[0][0], b[0][1], b[0][2], b[1][0], b[1][1], b[1][2],
               b[2][0], b[2][1], b[2][2], p.x, p.y);
  }

  function Dot3(a0: real, a1: real, a2: real, b0: real, b1: real, b2: real): real {
    a0 * b0 + a1 * b1 + a2 * b2
  }

  /** One output coordinate of a product, regrouped by the rows of the inner matrix. */
  lemma ComposeRow(a0: real, a1: real, a2: real, b00: real, b01: real, b02: real,
                   b10: real, b11: real, b12: real, b20: real, b21: real, b22: real, x: real, y: real)
    requires b20 == 0.0 && b21 == 0.0 && b22 == 1.0
    ensures Form(Dot3(a0, a1, a2, b00, b10, b20), Dot3(a0, a1, a2, b01, b11, b21), Dot3(a0, a1, a2, b02, b12, b22), x, y)
         == Form(a0, a1, a2, Form(b00, b01, b02, x, y), Form(b10, b11, b12, x, y))
  {
    assert a0 * (b00 * x + b01 * y + b02) == a0 * b00 * x + a0 * b01 * y + a0 * b02;
    assert a1 * (b10 * x + b11 * y + b12) == a1 * b10 * x + a1 * b11 * y + a1 * b12;
  }

  /** mat2to3 and Block are inverse to each other on linear matrices. */
  lemma EmbedBlock(m2: Matrix2, m3: Matrix3)
    ensures IsLinear(Embed(m2)) && Block(Embed(m2)) == m2
    ensures IsLinear(m3) ==> Embed(Block(m3)) == m3
  {
    assert Block(Embed(m2))[0] == m2[0] && Block(Embed(m2))[1] == m2[1];
    if IsLinear(m3) {
      assert Embed(Block(m3))[0] == m3[0] && Embed(Block(m3))[1] == m3[1];
    }
  }

  /** The 2x2 product a·b. */
  function Mul2(a: Matrix2, b: Matrix2): Matrix2 {
    [[a[0][0] * b[0][0] + a[0][1] * b[1][0], a[0][0] * b[0][1] + a[0][1] * b[1][1]],
     [a[1][0] * b[0][0] + a[1][1] * b[1][0], a[1][0] * b[0][1] + a[1][1] * b[1][1]]]
  }

  /** When b keeps the bottom row [0,0,1], the linear part of a·b is the product of the linear parts. */
  lemma BlockMul(a: Matrix3, b: Matrix3)
    ensures IsAffine(b) ==> Block(Mul(a, b)) == Mul2(Block(a), Block(b))
  {
    if IsAffine(b) {
      var l, r := Block(Mul(a, b)), Mul2(Block(a), Block(b));
      assert l[0][0] == Entry(a, b, 0, 0) == r[0][0];
      assert l[0][1] == Entry(a, b, 0, 1) == r[0][1];
      assert l[1][0] == Entry(a, b, 1, 0) == r[1][0];
      assert l[1][1] == Entry(a, b, 1, 1) == r[1][1];
      assert l[0] == r[0] && l[1] == r[1];
    }
  }

  /** A translation has no linear part, and the 2x2 identity is a unit of the 2x2 product. */
  lemma TranslateBlock(tx: real, ty: real, m: Matrix2)
    ensures Block(Translate(tx, ty)) == Identity2
    ensures Mul2(Identity2, m) == m && Mul2(m, Identity2) == m
  {
    assert Mul2(Identity2, m)[0] == m[0] && Mul2(Identity2, m)[1] == m[1];
    assert Mul2(m, Identity2)[0] == m[0] && Mul2(m, Identity2)[1] == m[1];
  }

  /** The determinant of the 2x2 linear block. */
  function Det2(m: Matrix3): real {
    m[0][0] * m[1][1] - m[0][1] * m[1][0]
  }

  /** The closed-form affine inverse, given k = 1/det. */
  function InverseWith(m: Matrix3, k: real): Matrix3 {
    var a, b, c := m[0][0], m[0][1], m[0][2];
    var d, e, f := m[1][0], m[1][1], m[1][2];
    [[e * k, -b * k, (b * f - c * e) * k],
     [-d * k, a * k, (c * d - a * f) * k],
     [0.0, 0.0, 1.0]]
  }

  /**
   * invertMatrix3x3: the closed-form inverse of an affine matrix, built from
   * its first two rows only; None when the 2x2 determinant is below 1e-12 in
   * magnitude.
   */
  function Invert(m: Matrix3): (r: Option<Matrix3>)
    ensures r.None? <==> Abs(Det2(m)) < 0.000000000001
    ensures r.Some? ==> IsAffine(r.value)
  {
    if Abs(Det2(m)) < 0.000000000001 then None
    else Some(InverseWith(m, 1.0 / Det2(m)))
  }

  /** InverseWith(m, k) undoes m when k is the reciprocal of its determinant. */
  lemma InverseWithLeft(m: Matrix3, k: real)
    requires IsAffine(m) && Det2(m) * k == 1.0
    ensures Mul(InverseWith(m, k), m) == Identity
  {
    var a, b, c := m[0][0], m[0][1], m[0][2];
    var d, e, f := m[1][0], m[1][1], m[1][2];
    var r := InverseWith(m, k);
    var left := Mul(r, m);
    assert left[0][0] == (a * e - b * d) * k by { assert left[0][0] == Entry(r, m, 0, 0); }
    assert left[0][1] == (e * b - b * e) * k by { assert left[0][1] == Entry(r, m, 0, 1); }
    assert left[0][2] == (e * c - b * f + b * f - c * e) * k by { assert left[0][2] == Entry(r, m, 0, 2); }
    assert left[1][0] == (a * d - d * a) * k by { assert left[1][0] == Entry(r, m, 1, 0); }
    assert left[1][1] == (a * e - b * d) * k by { assert left[1][1] == Entry(r, m, 1, 1); }
    assert left[1][2] == (a * f - d * c + c * d - a * f) * k by { assert left[1][2] == Entry(r, m, 1, 2); }
    assert (a * e - b * d) * k == 1.0;
    assert left[0] == Identity[0] && left[1] == Identity[1] && left[2] == Identity[2];
  }

  /** m undoes InverseWith(m, k) when k is the reciprocal of its determinant. */
  lemma InverseWithRight(m: Matrix3, k: real)
    requires IsAffine(m) && Det2(m) * k == 1.0
    ensures Mul(m, InverseWith(m, k)) == Identity
  {
    var a, b, c := m[0][0], m[0][1], m[0][2];
    var d, e, f := m[1][0], m[1][1], m[1][2];
    var r := InverseWith(m, k);
    var right := Mul(m, r);
    assert right[0][0] == (a * e - b * d) * k by { assert right[0][0] == Entry(m, r, 0, 0); }
    assert right[0][1] == (b * a - a * b) * k by { assert right[0][1] == Entry(m, r, 0, 1); }
    assert right[0][2] == c - c * ((a * e - b * d) * k) by { assert right[0][2] == Entry(m, r, 0, 2); }
    assert right[1][0] == (d * e - e * d) * k by { assert right[1][0] == Entry(m, r, 1, 0); }
    assert right[1][1] == (a * e - b * d) * k by { assert right[1][1] == Entry(m, r, 1, 1); }
    assert right[1][2] == f - f * ((a * e - b * d) * k) by { assert right[1][2] == Entry(m, r, 1, 2); }
    assert (a * e - b * d) * k == 1.0;
    assert right[0][2] == 0.0;
    assert right[1][2] == 0.0;
    assert right[0][1] == 0.0;
    assert right[1][0] == 0.0;
    assert right[0] == Identity[0] && right[1] == Identity[1] && right[2] == Identity[2];
  }

  /** A successful inverse of an affine matrix is a two-sided inverse. */
  lemma InvertIsInverse(m: Matrix3)
    requires IsAffine(m) && Invert(m).Some?
    ensures Mul(Invert(m).value, m) == Identity
    ensures Mul(m, Invert(m).value) == Identity
  {
    var k := 1.0 / Det2(m);
    assert Det2(m) * k == 1.0;
    InverseWithLeft(m, k);
    InverseWithRight(m, k);
  }
}

=== FILE: bounds.dfy ===
/**
 * Output-canvas sizing for the web studio (computeOutputBounds): the four
 * image corners are sent through the centred transform, their bounding box
 * is padded by a quarter of the larger image side, and the canvas is the
 * padded box rounded up.  The result, followed by a shift that moves the
 * box's top-left corner to the origin, keeps the whole image on the canvas.
 */
module Canvas {
  import opened Affine

  function Min(a: real, b: real): real {
    if a <= b then a else b
  }

  function Max(a: real, b: real): real {
    if a <= b then b else a
  }

  /** Math.ceil: the least integer not below `x`. */
  function Ceil(x: real): (n: int)
    ensures x <= n as real < x + 1.0
  {
    -((-x).Floor)
  }

  /** The least element of a non-empty sequence. */
  function SeqMin(xs: seq<real>): (r: real)
    requires |xs| > 0
    ensures forall i :: 0 <= i < |xs| ==> r <= xs[i]
    ensures exists i :: 0 <= i < |xs| && r == xs[i]
  {
    if |xs| == 1 then xs[0]
    else
      var m := SeqMin(xs[..|xs| - 1]);
      assert forall i :: 0 <= i < |xs| - 1 ==> xs[..|xs| - 1][i] == xs[i];
      Min(m, xs[|xs| - 1])
  }

  /** The greatest element of a non-empty sequence. */
  function SeqMax(xs: seq<real>): (r: real)
    requires |xs| > 0
    ensures forall i :: 0 <= i < |xs| ==> xs[i] <= r
    ensures exists i :: 0 <= i < |xs| && r == xs[i]
  {
    if |xs| == 1 then xs[0]
    else
      var m := SeqMax(xs[..|xs| - 1]);
      assert forall i :: 0 <= i < |xs| - 1 ==> xs[..|xs| - 1][i] == xs[i];
      Max(m, xs[|xs| - 1])
  }

  /** The corners (0,0), (w,0), (w,h), (0,h) of a w-by-h image. */
  function Corners(w: real, h: real): seq<Point> {
    [Point(0.0, 0.0), Point(w, 0.0), Point(w, h), Point(0.0, h)]
  }

  /** Where the transform `full` sends the four corners. */
  function Images(full: Matrix3, w: real, h: real): seq<Point> {
    var cs := Corners(w, h);
    [Apply(full, cs[0]), Apply(full, cs[1]), Apply(full, cs[2]), Apply(full, cs[3])]
  }

  function Xs(ps: seq<Point>): seq<real> {
    seq(|ps|, i requires 0 <= i < |ps| => ps[i].x)
  }

  function Ys(ps: seq<Point>): seq<real> {
    seq(|ps|, i requires 0 <= i < |ps| => ps[i].y)
  }

  /** The extremes of a one-element prefix are its element. */
  lemma ExtremesFirst(xs: seq<real>)
    requires |xs| > 0
    ensures SeqMin(xs[..1]) == xs[0] && SeqMax(xs[..1]) == xs[0]
  {
  }

  /** Extending a prefix by one element updates the running minimum and maximum. */
  lemma ExtremesStep(xs: seq<real>, i: nat)
    requires 0 < i < |xs|
    ensures SeqMin(xs[..i + 1]) == Min(SeqMin(xs[..i]), xs[i])
    ensures SeqMax(xs[..i + 1]) == Max(SeqMax(xs[..i]), xs[i])
  {
    assert xs[..i + 1][..i] == xs[..i];
  }

  /** The padding added on every side: a quarter of the larger image side. */
  function Pad(w: real, h: real): real {
    Max(w, h) * 0.25
  }

  /** Canvas size and the top-left corner of the padded box, in transformed coordinates. */
  datatype OutputBounds = OutputBounds(outW: int, outH: int, minX: real, minY: real)

  /** The bounds computeOutputBounds returns, as a function of its inputs. */
  function Bounds(w: real, h: real, full: Matrix3): (b: OutputBounds)
    ensures var ps := Images(full, w, h);
      b.minX == SeqMin(Xs(ps)) - Pad(w, h) && b.minY == SeqMin(Ys(ps)) - Pad(w, h) &&
      b.outW as real >= SeqMax(Xs(ps)) - SeqMin(Xs(ps)) + 2.0 * Pad(w, h) &&
      b.outH as real >= SeqMax(Ys(ps)) - SeqMin(Ys(ps)) + 2.0 * Pad(w, h) &&
      b.outW as real < SeqMax(Xs(ps)) - SeqMin(Xs(ps)) + 2.0 * Pad(w, h) + 1.0 &&
      b.outH as real < SeqMax(Ys(ps)) - SeqMin(Ys(ps)) + 2.0 * Pad(w, h) + 1.0
  {
    var ps := Images(full, w, h);
    var pad := Pad(w, h);
    var minX := SeqMin(Xs(ps)) - pad;
    var minY := SeqMin(Ys(ps)) - pad;
    var maxX := SeqMax(Xs(ps)) + pad;
    var maxY := SeqMax(Ys(ps)) + pad;
    OutputBounds(Ceil(maxX - minX), Ceil(maxY - minY), minX, minY)
  }

  /** The shift that moves the padded box's top-left corner to the canvas origin. */
  function Offset(b: OutputBounds): (t: Matrix3)
    ensures IsAffine(t) && Apply(t, Point(b.minX, b.minY)) == Point(0.0, 0.0)
  {
    Translate(-b.minX, -b.minY)
  }

  /** computeOutputBounds: one pass over the corners keeping running extremes. */
  method ComputeOutputBounds(w: real, h: real, full: Matrix3) returns (b: OutputBounds)
    ensures b == Bounds(w, h, full)
  {
    var corners := Corners(w, h);
    ghost var xs, ys := Xs(Images(full, w, h)), Ys(Images(full, w, h));
    var minX, maxX, minY, maxY := 0.0, 0.0, 0.0, 0.0;
    for i := 0 to 4
      invariant i > 0 ==> minX == SeqMin(xs[..i]) && maxX == SeqMax(xs[..i])
      invariant i > 0 ==> minY == SeqMin(ys[..i]) && maxY == SeqMax(ys[..i])
    {
      var q := Apply(full, corners[i]);
      var tx, ty := q.x, q.y;
      assert tx == xs[i] && ty == ys[i];
      if i == 0 {
        ExtremesFirst(xs);
        ExtremesFirst(ys);
        minX, maxX, minY, maxY := tx, tx, ty, ty;
      } else {
        ExtremesStep(xs, i);
        ExtremesStep(ys, i);
        minX, maxX := Min(minX, tx), Max(maxX, tx);
        minY, maxY := Min(minY, ty), Max(maxY, ty);
      }
    }
    assert xs[..4] == xs && ys[..4] == ys;
    var pad := Max(w, h) * 0.25;
    minX, minY, maxX, maxY := minX - pad, minY - pad, maxX + pad, maxY + pad;
    b := OutputBounds(Ceil(maxX - minX), Ceil(maxY - minY), minX, minY);
  }

  /** A point lies at least `pad` inside a w-by-h canvas. */
  predicate Inside(p: Point, pad: real, outW: int, outH: int) {
    pad <= p.x <= outW as real - pad && pad <= p.y <= outH as real - pad
  }

  /**
   * No corner is clipped: after the offset shift every transformed corner
   * lies on the canvas, at least the padding away from each edge.
   */
  lemma CornersOnCanvas(w: real, h: real, full: Matrix3, i: nat)
    requires IsAffine(full) && i < 4
    ensures var b := Bounds(w, h, full);
      Inside(Apply(Mul(Offset(b), full), Corners(w, h)[i]), Pad(w, h), b.outW, b.outH)
  {
    var b := Bounds(w, h, full);
    var c := Corners(w, h)[i];
    var p := Apply(full, c);
    ApplyMul(Offset(b), full, c);
    var ps := Images(full, w, h);
    assert p == ps[i];
    assert Xs(ps)[i] == p.x && Ys(ps)[i] == p.y;
  }

  lemma NonNegProduct(a: real, b: real)
    requires a >= 0.0 && b >= 0.0
    ensures a * b >= 0.0
  {
  }

  /** For 0 <= x <= w, the product a*x lies between 0 and a*w. */
  lemma ScaledBetween(a: real, x: real, w: real)
    requires 0.0 <= x <= w
    ensures Min(0.0, a * w) <= a * x <= Max(0.0, a * w)
  {
    NonNegProduct(if a >= 0.0 then a else -a, w - x);
    NonNegProduct(if a >= 0.0 then a else -a, x);
    assert a * (w - x) == a * w - a * x;
  }

  /** The values of the form at the corners (0,0), (w,0), (w,h), (0,h), in that order. */
  function CornerValues(a: real, c: real, t: real, w: real, h: real): seq<real> {
    [Form(a, c, t, 0.0, 0.0), Form(a, c, t, w, 0.0), Form(a, c, t, w, h), Form(a, c, t, 0.0, h)]
  }

  /**
   * An affine form takes its extremes over the rectangle [0,w]x[0,h] at the
   * corners: its value anywhere in it lies between the least and the
   * greatest corner value.
   */
  lemma FormBetweenCorners(a: real, c: real, t: real, x: real, y: real, w: real, h: real)
    requires 0.0 <= x <= w && 0.0 <= y <= h
    ensures SeqMin(CornerValues(a, c, t, w, h)) <= Form(a, c, t, x, y) <= SeqMax(CornerValues(a, c, t, w, h))
  {
    ScaledBetween(a, x, w);
    ScaledBetween(c, y, h);
    var cv := CornerValues(a, c, t, w, h);
    assert cv == [t, a * w + t, a * w + c * h + t, c * h + t];
    assert SeqMin(cv) <= cv[0] && SeqMin(cv) <= cv[1] && SeqMin(cv) <= cv[2] && SeqMin(cv) <= cv[3];
    assert cv[0] <= SeqMax(cv) && cv[1] <= SeqMax(cv) && cv[2] <= SeqMax(cv) && cv[3] <= SeqMax(cv);
  }

  /** The first coordinates of the transformed corners are the corner values of the first row. */
  lemma CornerXs(full: Matrix3, w: real, h: real)
    ensures Xs(Images(full, w, h)) == CornerValues(full[0][0], full[0][1], full[0][2], w, h)
  {
    var xs := Xs(Images(full, w, h));
    var cv := CornerValues(full[0][0], full[0][1], full[0][2], w, h);
    assert xs[0] == cv[0] && xs[1] == cv[1] && xs[2] == cv[2] && xs[3] == cv[3];
  }

  /** The second coordinates of the transformed corners are the corner values of the second row. */
  lemma CornerYs(full: Matrix3, w: real, h: real)
    ensures Ys(Images(full, w, h)) == CornerValues(full[1][0], full[1][1], full[1][2], w, h)
  {
    var ys := Ys(Images(full, w, h));
    var cv := CornerValues(full[1][0], full[1][1], full[1][2], w, h);
    assert ys[0] == cv[0] && ys[1] == cv[1] && ys[2] == cv[2] && ys[3] == cv[3];
  }

  /** Any point of the w-by-h image lands inside the bounding box of the transformed corners. */
  lemma InteriorBetweenCorners(w: real, h: real, full: Matrix3, p: Point)
    requires 0.0 <= p.x <= w && 0.0 <= p.y <= h
    ensures var ps := Images(full, w, h); var q := Apply(full, p);
      SeqMin(Xs(ps)) <= q.x <= SeqMax(Xs(ps)) && SeqMin(Ys(ps)) <= q.y <= SeqMax(Ys(ps))
  {
    CornerXs(full, w, h);
    CornerYs(full, w, h);
    FormBetweenCorners(full[0][0], full[0][1], full[0][2], p.x, p.y, w, h);
    FormBetweenCorners(full[1][0], full[1][1], full[1][2], p.x, p.y, w, h);
  }

  /**
   * Nothing of the image is clipped: every point of the w-by-h source image,
   * sent through the offset-corrected transform, lands on the canvas at least
   * the padding away from each edge.
   */
  lemma ImageOnCanvas(w: real, h: real, full: Matrix3, p: Point)
    requires IsAffine(full)
    requires 0.0 <= p.x <= w && 0.0 <= p.y <= h
    ensures var b := Bounds(w, h, full);
      Inside(Apply(Mul(Offset(b), full), p), Pad(w, h), b.outW, b.outH)
  {
    var b := Bounds(w, h, full);
    var ps := Images(full, w, h);
    var q := Apply(full, p);
    ApplyMul(Offset(b), full, p);
    InteriorBetweenCorners(w, h, full, p);
    OffsetShifts(b, q);
    CoordOnCanvas(q.x, SeqMin(Xs(ps)), SeqMax(Xs(ps)), Pad(w, h), b.minX, b.outW);
    CoordOnCanvas(q.y, SeqMin(Ys(ps)), SeqMax(Ys(ps)), Pad(w, h), b.minY, b.outH);
  }

  /** The offset shift subtracts the box's top-left corner. */
  lemma OffsetShifts(b: OutputBounds, q: Point)
    ensures Apply(Offset(b), q) == Point(q.x - b.minX, q.y - b.minY)
  {
  }

  /** One coordinate between the corner extremes lands a pad inside its side of the canvas. */
  lemma CoordOnCanvas(v: real, lo: real, hi: real, pad: real, minV: real, out: int)
    requires lo <= v <= hi && minV == lo - pad && out as real >= hi - lo + 2.0 * pad
    ensures pad <= v - minV <= out as real - pad
  {
  }
}

=== FILE: compose.dfy ===
/**
 * The web studio's composition engine: the three 2x2 blocks (scale,
 * rotation, shear) are embedded as 3x3 matrices and folded over the
 * user-chosen order, the fold is pivoted about the image centre, and the
 * result is placed on a canvas sized by the output bounds.
 */
module Compose {
  import opened Affine
  import opened Canvas

  /** The keys of the `matrices` dictionary and the entries of `transformOrder`. */
  datatype Kind = Scale | Rotation | Shear

  /** Every key has a block. */
  predicate Complete(ms: map<Kind, Matrix2>) {
    forall k: Kind :: k in ms
  }

  /** An order lists each of the three kinds exactly once. */
  predicate IsOrder(order: seq<Kind>) {
    multiset(order) == multiset{Scale, Rotation, Shear}
  }

  /** The order the studio starts with and returns to on reset. */
  const DefaultOrder: seq<Kind> := [Scale, Rotation, Shear]

  /** The default order lists each kind once. */
  lemma DefaultOrderIsOrder()
    ensures IsOrder(DefaultOrder)
  {
    assert DefaultOrder == [Scale] + [Rotation] + [Shear];
  }

  /**
   * The fold `combined = mat2to3(M[key]) * combined` over `order`, starting
   * from the identity: the block of the last key is the outermost factor.
   */
  function Chain(ms: map<Kind, Matrix2>, order: seq<Kind>): (r: Matrix3)
    requires Complete(ms)
    ensures IsLinear(r)
  {
    if order == [] then Identity
    else
      var block := Embed(ms[order[|order| - 1]]);
      var inner := Chain(ms, order[..|order| - 1]);
      EmbedBlock(ms[order[|order| - 1]], Identity);
      MulAffine(block, inner);
      Mul(block, inner)
  }

  /** A dictionary holding the three keys is complete. */
  lemma ThreeKeys(ms: map<Kind, Matrix2>)
    requires Scale in ms && Rotation in ms && Shear in ms
    ensures Complete(ms)
  {
    forall k: Kind
      ensures k in ms
    {
      match k
      case Scale =>
      case Rotation =>
      case Shear =>
    }
  }

  /** For a three-key order the fold is M[order[2]] * M[order[1]] * M[order[0]]. */
  lemma ChainOfThree(ms: map<Kind, Matrix2>, order: seq<Kind>)
    requires Complete(ms) && |order| == 3
    ensures Chain(ms, order) == Mul(Embed(ms[order[2]]), Mul(Embed(ms[order[1]]), Embed(ms[order[0]])))
  {
    assert order[..2][..1] == order[..1] && order[..1][..0] == [];
    assert Chain(ms, order[..1]) == Mul(Embed(ms[order[0]]), Identity);
    assert Chain(ms, order[..2]) == Mul(Embed(ms[order[1]]), Chain(ms, order[..1]));
    MulIdentity(Embed(ms[order[0]]));
  }

  /**
   * The first key of the order is applied first: a point goes through the
   * block of order[0], then order[1], then order[2].
   */
  lemma ChainAppliesInOrder(ms: map<Kind, Matrix2>, order: seq<Kind>, p: Point)
    requires Complete(ms) && |order| == 3
    ensures Apply(Chain(ms, order), p)
         == Apply(Embed(ms[order[2]]), Apply(Embed(ms[order[1]]), Apply(Embed(ms[order[0]]), p)))
  {
    ChainOfThree(ms, order);
    var a, b, c := Embed(ms[order[0]]), Embed(ms[order[1]]), Embed(ms[order[2]]);
    EmbedBlock(ms[order[0]], Identity);
    EmbedBlock(ms[order[1]], Identity);
    MulAffine(b, a);
    ApplyMul(c, Mul(b, a), p);
    ApplyMul(b, a, p);
  }

  /** The fold of identity blocks is the identity, whatever the order. */
  lemma {:induction false} ChainOfIdentities(ms: map<Kind, Matrix2>, order: seq<Kind>)
    requires Complete(ms) && forall k: Kind :: ms[k] == Identity2
    ensures Chain(ms, order) == Identity
  {
    if order != [] {
      ChainOfIdentities(ms, order[..|order| - 1]);
      assert Embed(Identity2) == Identity;
      MulIdentity(Identity);
    }
  }

  /** `fromOrigin * (combined * toOrigin)`: the fold pivoted about the image centre. */
  function Pivot(c: Matrix3, w: real, h: real): (r: Matrix3)
    ensures IsAffine(c) ==> Block(r) == Block(c)
  {
    var cx, cy := w / 2.0, h / 2.0;
    var toOrigin, fromOrigin := Translate(-cx, -cy), Translate(cx, cy);
    BlockMul(c, toOrigin);
    MulAffine(c, toOrigin);
    BlockMul(fromOrigin, Mul(c, toOrigin));
    TranslateBlock(-cx, -cy, Block(c));
    TranslateBlock(cx, cy, Block(c));
    Mul(fromOrigin, Mul(c, toOrigin))
  }

  /** Pivoting an affine matrix gives an affine matrix. */
  lemma PivotAffine(c: Matrix3, w: real, h: real)
    requires IsAffine(c)
    ensures IsAffine(Pivot(c, w, h))
  {
    var cx, cy := w / 2.0, h / 2.0;
    MulAffine(c, Translate(-cx, -cy));
    MulAffine(Translate(cx, cy), Mul(c, Translate(-cx, -cy)));
  }

  /** Shifting by (tx, ty) and then back by (-tx, -ty) is the identity. */
  lemma TranslateCancel(tx: real, ty: real)
    ensures Mul(Translate(tx, ty), Translate(-tx, -ty)) == Identity
  {
    var a, b := Translate(tx, ty), Translate(-tx, -ty);
    var m := Mul(a, b);
    assert m[0][0] == 1.0;
    assert m[0][1] == 0.0;
    assert m[0][2] == Entry(a, b, 0, 2) == 0.0;
    assert m[1][0] == 0.0;
    assert m[1][1] == 1.0;
    assert m[1][2] == Entry(a, b, 1, 2) == 0.0;
    assert m[2][0] == 0.0;
    assert m[2][1] == 0.0;
    assert m[2][2] == 1.0;
    assert m[0] == Identity[0] && m[1] == Identity[1] && m[2] == Identity[2];
  }

  /** `toOrigin` and `fromOrigin` cancel around the identity. */
  lemma PivotOfIdentity(w: real, h: real)
    ensures Pivot(Identity, w, h) == Identity
  {
    var cx, cy := w / 2.0, h / 2.0;
    MulIdentity(Translate(-cx, -cy));
    TranslateCancel(cx, cy);
  }

  /** With all three blocks the identity, `full` is the identity for every order. */
  lemma IdentityBlocksGiveIdentity(ms: map<Kind, Matrix2>, order: seq<Kind>, w: real, h: real)
    requires Complete(ms) && forall k: Kind :: ms[k] == Identity2
    ensures Pivot(Chain(ms, order), w, h) == Identity
  {
    ChainOfIdentities(ms, order);
    PivotOfIdentity(w, h);
  }

  /** A pivoted linear map leaves the image centre where it is. */
  lemma PivotFixesCentre(c: Matrix3, w: real, h: real)
    requires IsLinear(c)
    ensures Apply(Pivot(c, w, h), Point(w / 2.0, h / 2.0)) == Point(w / 2.0, h / 2.0)
  {
    var cx, cy := w / 2.0, h / 2.0;
    var toOrigin, fromOrigin := Translate(-cx, -cy), Translate(cx, cy);
    var centre := Point(cx, cy);
    MulAffine(c, toOrigin);
    ApplyMul(fromOrigin, Mul(c, toOrigin), centre);
    ApplyMul(c, toOrigin, centre);
    assert Apply(toOrigin, centre) == Point(0.0, 0.0);
    assert Apply(c, Point(0.0, 0.0)) == Point(0.0, 0.0);
  }

  /** The whole studio fold fixes the image centre, whatever the blocks and the order. */
  lemma FullFixesCentre(ms: map<Kind, Matrix2>, order: seq<Kind>, w: real, h: real)
    requires Complete(ms)
    ensures Apply(Pivot(Chain(ms, order), w, h), Point(w / 2.0, h / 2.0)) == Point(w / 2.0, h / 2.0)
  {
    PivotFixesCentre(Chain(ms, order), w, h);
  }

  /**
   * The order matters: scaling x by 2 and then rotating by a quarter turn is
   * not the same as rotating first and then scaling.
   */
  lemma OrderMatters()
    ensures var ms := map[Scale := [[2.0, 0.0], [0.0, 1.0]], Rotation := [[0.0, -1.0], [1.0, 0.0]], Shear := Identity2];
      Complete(ms) && Chain(ms, [Scale, Rotation, Shear]) != Chain(ms, [Rotation, Scale, Shear])
  {
    var ms := map[Scale := [[2.0, 0.0], [0.0, 1.0]], Rotation := [[0.0, -1.0], [1.0, 0.0]], Shear := Identity2];
    var p := Point(1.0, 0.0);
    ThreeKeys(ms);
    ChainAppliesInOrder(ms, [Scale, Rotation, Shear], p);
    ChainAppliesInOrder(ms, [Rotation, Scale, Shear], p);
    assert Apply(Chain(ms, [Scale, Rotation, Shear]), p) == Point(0.0, 2.0);
    assert Apply(Chain(ms, [Rotation, Scale, Shear]), p) == Point(0.0, 1.0);
  }

  /** The compose loop of applyTransform / applyFromMatrices. */
  method ComposeOrdered(ms: map<Kind, Matrix2>, order: seq<Kind>) returns (combined: Matrix3)
    requires Complete(ms)
    ensures combined == Chain(ms, order)
    ensures IsLinear(combined)
  {
    combined := Identity;
    for i := 0 to |order|
      invariant combined == Chain(ms, order[..i])
    {
      assert order[..i + 1][..i] == order[..i];
      combined := Mat3Mul(Embed(ms[order[i]]), combined);
    }
    assert order[..|order|] == order;
  }

  /** `full = fromOrigin * (combined * toOrigin)` with the pivot at the image centre. */
  method PivotAboutCentre(combined: Matrix3, w: real, h: real) returns (full: Matrix3)
    ensures full == Pivot(combined, w, h)
  {
    var cx, cy := w / 2.0, h / 2.0;
    var toOrigin := Translate(-cx, -cy);
    var fromOrigin := Translate(cx, cy);
    var inner := Mat3Mul(combined, toOrigin);
    full := Mat3Mul(fromOrigin, inner);
  }

  /** The image rectangle [0,w] x [0,h]. */
  predicate InImage(p: Point, w: real, h: real) {
    0.0 <= p.x <= w && 0.0 <= p.y <= h
  }

  /**
   * `m` and the canvas size `outW` by `outH` are `full` placed for a w-by-h
   * image: shifted by the offset of its bounds, the canvas sized by them.
   * Every point of the image then lands on the canvas, the padding away
   * from its edges.
   */
  ghost predicate PlacedAs(w: real, h: real, full: Matrix3, m: Matrix3, outW: int, outH: int) {
    var b := Bounds(w, h, full);
    m == Mul(Offset(b), full) && outW == b.outW && outH == b.outH &&
    (forall q :: InImage(q, w, h) ==> Inside(Apply(m, q), Pad(w, h), outW, outH))
  }

  /**
   * computeOutputBounds followed by the offset shift, shared by the
   * composed path and the combined-matrix path: the placed matrix keeps
   * every point of the image on the canvas, the padding away from its edges.
   */
  method Place(w: real, h: real, full: Matrix3) returns (combined3: Matrix3, b: OutputBounds)
    requires IsAffine(full)
    ensures b == Bounds(w, h, full) && IsAffine(combined3)
    ensures PlacedAs(w, h, full, combined3, b.outW, b.outH)
  {
    b := ComputeOutputBounds(w, h, full);
    combined3 := Mat3Mul(Offset(b), full);
    MulAffine(Offset(b), full);
    forall p | InImage(p, w, h)
      ensures Inside(Apply(combined3, p), Pad(w, h), b.outW, b.outH)
    {
      ImageOnCanvas(w, h, full, p);
    }
  }
}

=== FILE: display.dfy ===
/**
 * The matrix text both front ends write into their editable matrix box:
 * a line "[", one line per row of the 2x3 part, and a line "]".  Each row
 * is its three values, each right-aligned in a fixed number of columns
 * with two spaces before it.  The lemmas here take such a text apart the
 * way the parsers do (strip, split at line feeds, split at whitespace).
 */
module Display {
  import opened Wrappers
  import opened Affine
  import opened Text

  /** `n` spaces. */
  function Spaces(n: nat): (r: string)
    ensures |r| == n && forall i :: 0 <= i < n ==> r[i] == ' '
  {
    seq(n, i => ' ')
  }

  /** Left-padded with spaces to `width` characters (padStart, or a right-aligned format field). */
  function PadStart(t: string, width: nat): (r: string)
    ensures |r| == (if |t| < width then width else |t|)
    ensures r[|r| - |t|..] == t
    ensures forall i :: 0 <= i < |r| - |t| ==> r[i] == ' '
  {
    Spaces(if |t| < width then width - |t| else 0) + t
  }

  /** A number as a display writes it: a word with no bracket in it. */
  predicate Shown(t: string) {
    IsWord(t) && forall i :: 0 <= i < |t| ==> !IsBracket(t[i])
  }

  /** One value as a row writes it: two spaces, then the value right-aligned in `width` columns. */
  function Cell(t: string, width: nat): string {
    "  " + PadStart(t, width)
  }

  /**
   * One row of the matrix text: its three cells.  Values that fit the width
   * end at fixed columns, each cell being two plus `width` characters.
   */
  function RowText(a: string, b: string, c: string, width: nat): (r: string)
    ensures |a| <= width && |b| <= width && |c| <= width ==>
      var k := width + 2;
      |r| == 3 * k && r[k - |a|..k] == a && r[2 * k - |b|..2 * k] == b && r[3 * k - |c|..] == c
  {
    RowColumns(a, b, c, width);
    Cell(a, width) + (Cell(b, width) + Cell(c, width))
  }

  /** A value that fits the width fills the last columns of its cell. */
  lemma CellColumns(t: string, width: nat)
    ensures |t| <= width ==> |Cell(t, width)| == width + 2 && Cell(t, width)[width + 2 - |t|..] == t
  {
  }

  /** A slice that ends where the left operand ends lies in the left operand. */
  lemma SliceLeft(x: string, y: string, i: nat)
    requires i <= |x|
    ensures (x + y)[i..|x|] == x[i..]
  {
  }

  /** A slice that starts after the left operand lies in the right operand. */
  lemma SliceRight(x: string, y: string, i: nat, j: nat)
    requires |x| <= i <= j <= |x| + |y|
    ensures (x + y)[i..j] == y[i - |x|..j - |x|]
  {
  }

  /** Three equally wide cells side by side, each ending in its value. */
  lemma ThreeColumns(x: string, y: string, z: string, a: string, b: string, c: string, k: nat)
    requires |x| == k && |y| == k && |z| == k && |a| <= k && |b| <= k && |c| <= k
    requires x[k - |a|..] == a && y[k - |b|..] == b && z[k - |c|..] == c
    ensures var r := x + (y + z);
      |r| == 3 * k && r[k - |a|..k] == a && r[2 * k - |b|..2 * k] == b && r[3 * k - |c|..] == c
  {
    var tail := y + z;
    SliceLeft(x, tail, k - |a|);
    SliceLeft(y, z, k - |b|);
    SliceRight(x, tail, 2 * k - |b|, 2 * k);
    SliceRight(y, z, 2 * k - |c|, 2 * k);
    SliceRight(x, tail, 3 * k - |c|, 3 * k);
  }

  /** The cells of a row sit side by side, each value at the end of its own cell. */
  lemma RowColumns(a: string, b: string, c: string, width: nat)
    ensures |a| <= width && |b| <= width && |c| <= width ==>
      var r, k := Cell(a, width) + (Cell(b, width) + Cell(c, width)), width + 2;
      |r| == 3 * k && r[k - |a|..k] == a && r[2 * k - |b|..2 * k] == b && r[3 * k - |c|..] == c
  {
    if |a| <= width && |b| <= width && |c| <= width {
      CellColumns(a, width);
      CellColumns(b, width);
      CellColumns(c, width);
      ThreeColumns(Cell(a, width), Cell(b, width), Cell(c, width), a, b, c, width + 2);
    }
  }

  /** The frame around two rows: "[", the rows, "]", each on its own line. */
  function Frame(r0: string, r1: string): (t: string)
    ensures '\n' !in r0 && '\n' !in r1 ==> Split(t, '\n') == ["[", r0, r1, "]"]
  {
    var lines := ["[", r0, r1, "]"];
    assert lines[1..][1..][1..] == ["]"];
    assert Join(lines[1..][1..], '\n') == r1 + ("\n" + "]");
    assert Join(lines[1..], '\n') == r0 + ("\n" + (r1 + ("\n" + "]")));
    var t := "[" + ("\n" + (r0 + ("\n" + (r1 + ("\n" + "]")))));
    assert Join(lines, '\n') == t;
    SplitJoin(lines, '\n');
    t
  }

  /** A row of shown values holds no line feed, and its words are the three values. */
  lemma RowLayout(a: string, b: string, c: string, width: nat)
    ensures Shown(a) && Shown(b) && Shown(c) ==>
      '\n' !in RowText(a, b, c, width) && Words(RowText(a, b, c, width)) == [a, b, c]
  {
    if Shown(a) && Shown(b) && Shown(c) {
      RowClean(a, b, c, width);
      PlainNoNewline(RowText(a, b, c, width));
      RowWords(a, b, c, width);
    }
  }

  /**
   * The matrix text for the 2x3 part of `m`, each value written by `show` in
   * `width` columns.  When every value shows as a plain word, the text has
   * four lines: "[", a line whose words are the first row's values, the same
   * for the second row, and "]".
   */
  function MatrixText(m: Matrix3, show: real -> string, width: nat): (t: string)
    ensures (forall i, j :: 0 <= i < 2 && 0 <= j < 3 ==> Shown(show(m[i][j]))) ==>
      var ls := Split(t, '\n');
      |ls| == 4 && ls[0] == "[" && ls[3] == "]" &&
      Words(ls[1]) == [show(m[0][0]), show(m[0][1]), show(m[0][2])] &&
      Words(ls[2]) == [show(m[1][0]), show(m[1][1]), show(m[1][2])]
  {
    RowLayout(show(m[0][0]), show(m[0][1]), show(m[0][2]), width);
    RowLayout(show(m[1][0]), show(m[1][1]), show(m[1][2]), width);
    Frame(RowText(show(m[0][0]), show(m[0][1]), show(m[0][2]), width),
          RowText(show(m[1][0]), show(m[1][1]), show(m[1][2]), width))
  }

  /** The six shown values are words that convert back to numbers. */
  predicate ReadsBack(m: Matrix3, show: real -> string, toNumber: string -> Option<real>) {
    forall i, j :: 0 <= i < 2 && 0 <= j < 3 ==> Shown(show(m[i][j])) && toNumber(show(m[i][j])).Some?
  }

  /** The number a shown word converts to. */
  function ValueOf(t: string, toNumber: string -> Option<real>): real
    requires toNumber(t).Some?
  {
    toNumber(t).value
  }

  /** The matrix of the values the text shows: each entry as its shown text reads back. */
  function ShownMatrix(m: Matrix3, show: real -> string, toNumber: string -> Option<real>): Matrix3
    requires ReadsBack(m, show, toNumber)
  {
    [[ValueOf(show(m[0][0]), toNumber), ValueOf(show(m[0][1]), toNumber), ValueOf(show(m[0][2]), toNumber)],
     [ValueOf(show(m[1][0]), toNumber), ValueOf(show(m[1][1]), toNumber), ValueOf(show(m[1][2]), toNumber)],
     [0.0, 0.0, 1.0]]
  }

  /** Values written exactly read back as themselves. */
  lemma ShownExactly(m: Matrix3, show: real -> string, toNumber: string -> Option<real>)
    requires IsAffine(m) && ReadsBack(m, show, toNumber)
    requires forall i, j :: 0 <= i < 2 && 0 <= j < 3 ==> toNumber(show(m[i][j])) == Some(m[i][j])
    ensures ShownMatrix(m, show, toNumber) == m
  {
    var s := ShownMatrix(m, show, toNumber);
    assert s[0] == m[0] && s[1] == m[1] && s[2] == m[2];
  }

  /** How many spaces a cell writes before its value. */
  function Gap(t: string, width: nat): nat {
    2 + (if |t| < width then width - |t| else 0)
  }

  /** Two more spaces in front of `k` spaces. */
  lemma SpacesMore(k: nat)
    ensures "  " + Spaces(k) == Spaces(k + 2)
  {
  }

  /** A cell is whitespace followed by its value. */
  lemma CellParts(t: string, width: nat)
    ensures Cell(t, width) == Spaces(Gap(t, width)) + t
  {
    var k := Gap(t, width) - 2;
    SpacesMore(k);
    assert Cell(t, width) == ("  " + Spaces(k)) + t;
  }

  /** A cell contributes exactly its value as a word. */
  lemma CellWords(t: string, width: nat, rest: string)
    requires IsWord(t) && (rest == [] || IsSpace(rest[0]))
    ensures Words(Cell(t, width) + rest) == [t] + Words(rest)
  {
    CellParts(t, width);
    assert Cell(t, width) + rest == Spaces(Gap(t, width)) + t + rest;
    WordsCons(Spaces(Gap(t, width)), t, rest);
  }

  /** No bracket and no line feed: a piece of text the frame can hold on one line. */
  predicate Plain(s: string) {
    forall i :: 0 <= i < |s| ==> !IsBracket(s[i]) && s[i] != '\n'
  }

  /** A plain text has no line feed. */
  lemma PlainNoNewline(s: string)
    requires Plain(s)
    ensures '\n' !in s
  {
  }

  /** Plain texts run together stay plain. */
  lemma PlainAppend(x: string, y: string)
    requires Plain(x) && Plain(y)
    ensures Plain(x + y)
  {
    var s := x + y;
    forall i | 0 <= i < |s|
      ensures !IsBracket(s[i]) && s[i] != '\n'
    {
      if i < |x| {
        assert s[i] == x[i];
      } else {
        assert s[i] == y[i - |x|];
      }
    }
  }

  /** A cell of a shown value is plain. */
  lemma PlainCell(t: string, width: nat)
    requires Shown(t)
    ensures Plain(Cell(t, width))
  {
    CellParts(t, width);
    PlainAppend(Spaces(Gap(t, width)), t);
  }

  /** A row has exactly its three shown values as words. */
  lemma RowWords(a: string, b: string, c: string, width: nat)
    requires Shown(a) && Shown(b) && Shown(c)
    ensures Words(RowText(a, b, c, width)) == [a, b, c]
  {
    assert Cell(c, width) + [] == Cell(c, width);
    CellWords(c, width, []);
    assert Words([]) == [];
    assert Cell(c, width)[0] == ' ';
    CellWords(b, width, Cell(c, width));
    assert (Cell(b, width) + Cell(c, width))[0] == ' ';
    CellWords(a, width, Cell(b, width) + Cell(c, width));
  }

  /** A row of shown values has no brackets and no line feeds. */
  lemma RowClean(a: string, b: string, c: string, width: nat)
    requires Shown(a) && Shown(b) && Shown(c)
    ensures Plain(RowText(a, b, c, width))
  {
    PlainCell(a, width);
    PlainCell(b, width);
    PlainCell(c, width);
    PlainAppend(Cell(b, width), Cell(c, width));
    PlainAppend(Cell(a, width), Cell(b, width) + Cell(c, width));
  }

  /** A row strips to its text after the leading spaces, and is not blank. */
  lemma RowStrip(a: string, b: string, c: string, width: nat)
    requires Shown(a) && Shown(b) && Shown(c)
    ensures var t := Strip(RowText(a, b, c, width), IsSpace); t != [] && Words(t) == Words(RowText(a, b, c, width))
  {
    var row := RowText(a, b, c, width);
    CellParts(c, width);
    assert row[|row| - 1] == c[|c| - 1];
    StripLeading(row, IsSpace);
    WordsSkipSpaces(row, Lead(row, IsSpace));
  }

  /** A stripped plain text is plain. */
  lemma PlainStrip(s: string)
    requires Plain(s)
    ensures Plain(Strip(s, IsSpace))
  {
    var t := Strip(s, IsSpace);
    var k := Lead(s, IsSpace);
    forall i | 0 <= i < |t|
      ensures !IsBracket(t[i]) && t[i] != '\n'
    {
      assert t[i] == s[k + i];
    }
  }

  /** What a parser needs of a row: plain, not blank, and its words are the three shown values. */
  lemma RowFacts(a: string, b: string, c: string, width: nat)
    requires Shown(a) && Shown(b) && Shown(c)
    ensures var row := RowText(a, b, c, width);
      Plain(row) && Plain(Strip(row, IsSpace)) &&
      Strip(row, IsSpace) != [] && Words(Strip(row, IsSpace)) == [a, b, c]
  {
    RowClean(a, b, c, width);
    PlainStrip(RowText(a, b, c, width));
    RowStrip(a, b, c, width);
    RowWords(a, b, c, width);
  }

  /** Splitting the bracket-free frame at line feeds: an empty piece, the two rows, an empty piece. */
  lemma SplitFrame(r0: string, r1: string)
    requires '\n' !in r0 && '\n' !in r1
    ensures Split("\n" + (r0 + ("\n" + (r1 + "\n"))), '\n') == [[], r0, r1, []]
  {
    var nl := "\n";
    SplitAt(r1, '\n', []);
    assert r1 + nl == r1 + ['\n'] + [];
    SplitAt(r0, '\n', r1 + nl);
    assert r0 + (nl + (r1 + nl)) == r0 + ['\n'] + (r1 + nl);
    SplitAt([], '\n', r0 + (nl + (r1 + nl)));
    assert nl + (r0 + (nl + (r1 + nl))) == [] + ['\n'] + (r0 + (nl + (r1 + nl)));
  }

  /** Of the four pieces, only the two rows are not blank. */
  lemma NonBlankFrame(r0: string, r1: string)
    requires Strip(r0, IsSpace) != [] && Strip(r1, IsSpace) != []
    ensures NonBlank([[], r0, r1, []]) == [Strip(r0, IsSpace), Strip(r1, IsSpace)]
  {
    var pieces: seq<string> := [[], r0, r1, []];
    var t0, t1 := Strip(r0, IsSpace), Strip(r1, IsSpace);
    assert Strip([], IsSpace) == [];
    assert pieces[1..][1..][1..] == [[]];
    assert NonBlank([[]]) == [];
    assert NonBlank(pieces[1..][1..]) == [t1];
    assert NonBlank(pieces[1..]) == [t0, t1];
  }
}

=== FILE: text.dfy ===
/**
 * The string operations the two matrix-text parsers are built from:
 * Python's str.strip / str.strip(chars) / str.split / str.replace and
 * JavaScript's trim / split / replace, over `seq<char>`.
 */
module Text {

  /** Whitespace: space, tab, line feed, vertical tab, form feed, carriage return. */
  predicate IsSpace(c: char) {
    c == ' ' || '\t' <= c <= '\r'
  }

  predicate IsBracket(c: char) {
    c == '[' || c == ']'
  }

  predicate IsNewline(c: char) {
    c == '\n'
  }

  /** How many leading characters satisfy `drop`. */
  function Lead(s: string, drop: char -> bool): (k: nat)
    ensures k <= |s|
    ensures forall i :: 0 <= i < k ==> drop(s[i])
    ensures k == |s| || !drop(s[k])
  {
    if s != [] && drop(s[0]) then 1 + Lead(s[1..], drop) else 0
  }

  /** Drops the leading characters that satisfy `drop`. */
  function StripStart(s: string, drop: char -> bool): (r: string)
    ensures r == s[Lead(s, drop)..]
    ensures r == [] || !drop(r[0])
  {
    s[Lead(s, drop)..]
  }

  /** Drops the trailing characters that satisfy `drop`. */
  function StripEnd(s: string, drop: char -> bool): (r: string)
    ensures |r| <= |s| && r == s[..|r|]
    ensures r == [] || !drop(r[|r| - 1])
    ensures forall i :: |r| <= i < |s| ==> drop(s[i])
  {
    if s != [] && drop(s[|s| - 1]) then StripEnd(s[..|s| - 1], drop) else s
  }

  /** Non-empty, and neither end satisfies `drop`. */
  predicate Trimmed(r: string, drop: char -> bool) {
    r != [] && !drop(r[0]) && !drop(r[|r| - 1])
  }

  /** str.strip(chars) / String.prototype.trim: strip both ends. */
  function Strip(s: string, drop: char -> bool): (r: string)
    ensures Lead(s, drop) + |r| <= |s| && r == s[Lead(s, drop)..Lead(s, drop) + |r|]
    ensures r == [] || Trimmed(r, drop)
    ensures r == [] <==> Lead(s, drop) == |s|
    ensures forall i :: Lead(s, drop) + |r| <= i < |s| ==> drop(s[i])
  {
    var t := StripStart(s, drop);
    var r := StripEnd(t, drop);
    r
  }

  /** str.replace / a global regex replace with '': delete every character that satisfies `drop`. */
  function Remove(s: string, drop: char -> bool): (r: string)
    ensures |r| <= |s|
    ensures forall c :: c in r <==> c in s && !drop(c)
  {
    if s == [] then [] else (if drop(s[0]) then [] else [s[0]]) + Remove(s[1..], drop)
  }

  /** Remove distributes over concatenation. */
  lemma {:induction false} RemoveAppend(x: string, y: string, drop: char -> bool)
    ensures Remove(x + y, drop) == Remove(x, drop) + Remove(y, drop)
  {
    if x == [] {
      assert x + y == y;
    } else {
      assert (x + y)[0] == x[0];
      assert (x + y)[1..] == x[1..] + y;
      RemoveAppend(x[1..], y, drop);
    }
  }

  /** Removing from a string none of whose characters is dropped changes nothing. */
  lemma {:induction false} RemoveNone(s: string, drop: char -> bool)
    requires forall i :: 0 <= i < |s| ==> !drop(s[i])
    ensures Remove(s, drop) == s
  {
    if s != [] {
      RemoveNone(s[1..], drop);
    }
  }

  /** Removing from a string all of whose characters are dropped leaves nothing. */
  lemma {:induction false} RemoveAll(s: string, drop: char -> bool)
    requires forall i :: 0 <= i < |s| ==> drop(s[i])
    ensures Remove(s, drop) == []
  {
    if s != [] {
      RemoveAll(s[1..], drop);
    }
  }

  /** str.split(sep) for a one-character separator: the pieces between separators. */
  function Split(s: string, sep: char): (r: seq<string>)
    ensures |r| >= 1
    ensures forall i :: 0 <= i < |r| ==> sep !in r[i]
  {
    if s == [] then [[]]
    else
      var rest := Split(s[1..], sep);
      if s[0] == sep then [[]] + rest else [[s[0]] + rest[0]] + rest[1..]
  }

  /** Joins pieces with the separator between them (the inverse of Split). */
  function Join(parts: seq<string>, sep: char): string
    requires |parts| >= 1
  {
    if |parts| == 1 then parts[0] else parts[0] + [sep] + Join(parts[1..], sep)
  }

  /** Splitting and re-joining gives back the original string. */
  lemma {:induction false} JoinSplit(s: string, sep: char)
    ensures Join(Split(s, sep), sep) == s
  {
    if s != [] {
      var rest := Split(s[1..], sep);
      JoinSplit(s[1..], sep);
      if s[0] != sep {
        var r := Split(s, sep);
        if |rest| == 1 {
          assert Join(r, sep) == [s[0]] + rest[0];
        } else {
          assert r[1..] == rest[1..];
          assert Join(r, sep) == [s[0]] + rest[0] + [sep] + Join(rest[1..], sep);
        }
      }
    }
  }

  /** Joining pieces none of which holds the separator and splitting again gives back the pieces. */
  lemma {:induction false} SplitJoin(parts: seq<string>, sep: char)
    requires |parts| >= 1
    ensures (forall i :: 0 <= i < |parts| ==> sep !in parts[i]) ==> Split(Join(parts, sep), sep) == parts
  {
    if forall i :: 0 <= i < |parts| ==> sep !in parts[i] {
      if |parts| == 1 {
        SplitNone(parts[0], sep);
      } else {
        assert sep !in parts[0];
        assert forall i :: 0 <= i < |parts[1..]| ==> parts[1..][i] == parts[i + 1];
        SplitJoin(parts[1..], sep);
        SplitAt(parts[0], sep, Join(parts[1..], sep));
        assert [parts[0]] + parts[1..] == parts;
      }
    }
  }

  /** The longest prefix of `t` without whitespace. */
  function Token(t: string): (w: string)
    ensures |w| <= |t| && w == t[..|w|]
    ensures forall i :: 0 <= i < |w| ==> !IsSpace(w[i])
    ensures |w| == |t| || IsSpace(t[|w|])
    ensures t != [] && !IsSpace(t[0]) ==> w != []
  {
    if t == [] || IsSpace(t[0]) then [] else [t[0]] + Token(t[1..])
  }

  /** A word: non-empty, without whitespace. */
  predicate IsWord(w: string) {
    w != [] && forall k :: 0 <= k < |w| ==> !IsSpace(w[k])
  }

  /** str.split() with no argument: the maximal runs of non-whitespace. */
  function Words(s: string): (r: seq<string>)
    ensures forall i :: 0 <= i < |r| ==> IsWord(r[i])
    decreases |s|
  {
    if s == [] then []
    else if IsSpace(s[0]) then Words(s[1..])
    else
      var w := Token(s);
      assert IsWord(w);
      [w] + Words(s[|w|..])
  }

  /** All the words, run together. */
  function Concat(ws: seq<string>): string {
    if ws == [] then [] else ws[0] + Concat(ws[1..])
  }

  /** A token survives whitespace removal whole. */
  lemma RemoveToken(t: string)
    ensures Remove(t, IsSpace) == Token(t) + Remove(t[|Token(t)|..], IsSpace)
  {
    var w := Token(t);
    assert t == w + t[|w|..];
    RemoveAppend(w, t[|w|..], IsSpace);
    RemoveNone(w, IsSpace);
  }

  /** The words hold exactly the non-whitespace characters, in order. */
  lemma {:induction false} WordsKeepText(s: string)
    ensures Concat(Words(s)) == Remove(s, IsSpace)
    decreases |s|
  {
    if s == [] {
    } else if IsSpace(s[0]) {
      assert s == [s[0]] + s[1..];
      RemoveAppend([s[0]], s[1..], IsSpace);
      WordsKeepText(s[1..]);
    } else {
      var w := Token(s);
      var rest := s[|w|..];
      RemoveToken(s);
      WordsKeepText(rest);
      var ws := Words(s);
      assert ws == [w] + Words(rest);
      assert ws[0] == w && ws[1..] == Words(rest);
    }
  }

  /** Each line stripped of surrounding whitespace, blank lines dropped. */
  function NonBlank(lines: seq<string>): (r: seq<string>)
    ensures |r| <= |lines|
    ensures forall i :: 0 <= i < |r| ==> Trimmed(r[i], IsSpace)
  {
    if lines == [] then []
    else
      var t := Strip(lines[0], IsSpace);
      (if t == [] then [] else [t]) + NonBlank(lines[1..])
  }

  /** A single line gives its stripped text, or nothing when it is blank. */
  lemma NonBlankOne(l: string)
    ensures NonBlank([l]) == if Strip(l, IsSpace) == [] then [] else [Strip(l, IsSpace)]
  {
  }

  /** Filtering blank lines distributes over concatenation, so the kept lines keep their order. */
  lemma {:induction false} NonBlankAppend(x: seq<string>, y: seq<string>)
    ensures NonBlank(x + y) == NonBlank(x) + NonBlank(y)
  {
    if x == [] {
      assert x + y == y;
    } else {
      assert (x + y)[0] == x[0];
      assert (x + y)[1..] == x[1..] + y;
      NonBlankAppend(x[1..], y);
    }
  }

  /** A string whose two ends are kept is its own strip. */
  lemma StripKeepsEnds(s: string, drop: char -> bool)
    requires s != [] && !drop(s[0]) && !drop(s[|s| - 1])
    ensures Strip(s, drop) == s
  {
    assert Lead(s, drop) == 0;
    assert StripStart(s, drop) == s;
  }

  /** Stripping the leading characters of a string that ends in a kept character. */
  lemma StripLeading(s: string, drop: char -> bool)
    requires s != [] && !drop(s[|s| - 1])
    ensures Strip(s, drop) == s[Lead(s, drop)..]
  {
    var t := StripStart(s, drop);
    assert t != [] && t[|t| - 1] == s[|s| - 1];
  }

  /** Leading whitespace does not change the words. */
  lemma {:induction false} WordsSkipSpaces(s: string, k: nat)
    requires k <= |s| && forall i :: 0 <= i < k ==> IsSpace(s[i])
    ensures Words(s[k..]) == Words(s)
    decreases k
  {
    if k > 0 {
      assert s[1..][k - 1..] == s[k..];
      WordsSkipSpaces(s[1..], k - 1);
    }
  }

  /** A word followed by whitespace or the end of the text is a whole token. */
  lemma {:induction false} TokenOfWord(w: string, rest: string)
    requires forall i :: 0 <= i < |w| ==> !IsSpace(w[i])
    requires rest == [] || IsSpace(rest[0])
    ensures Token(w + rest) == w
  {
    if w == [] {
      assert w + rest == rest;
    } else {
      assert (w + rest)[0] == w[0];
      assert (w + rest)[1..] == w[1..] + rest;
      TokenOfWord(w[1..], rest);
    }
  }

  /** Whitespace, a word, then whitespace or nothing: the word comes first. */
  lemma WordsCons(sp: string, w: string, rest: string)
    requires forall i :: 0 <= i < |sp| ==> IsSpace(sp[i])
    requires IsWord(w)
    requires rest == [] || IsSpace(rest[0])
    ensures Words(sp + w + rest) == [w] + Words(rest)
  {
    var s := sp + w + rest;
    assert s[|sp|..] == w + rest;
    WordsSkipSpaces(s, |sp|);
    TokenOfWord(w, rest);
    assert (w + rest)[0] == w[0];
    assert (w + rest)[|w|..] == rest;
  }

  /** Cutting at a first separator: the piece before it, then the pieces of the rest. */
  lemma {:induction false} SplitAt(x: string, sep: char, y: string)
    requires sep !in x
    ensures Split(x + [sep] + y, sep) == [x] + Split(y, sep)
  {
    if x == [] {
      assert x + [sep] + y == [sep] + y;
      assert ([sep] + y)[1..] == y;
    } else {
      var s := x + [sep] + y;
      assert s[0] == x[0];
      assert s[1..] == x[1..] + [sep] + y;
      SplitAt(x[1..], sep, y);
      assert [x[0]] + x[1..] == x;
    }
  }

  /** A string without the separator is a single piece. */
  lemma {:induction false} SplitNone(x: string, sep: char)
    requires sep !in x
    ensures Split(x, sep) == [x]
  {
    if x != [] {
      SplitNone(x[1..], sep);
      assert [x[0]] + x[1..] == x;
    }
  }

  /** A kept string between two dropped characters strips to itself. */
  lemma StripBoth(a: char, x: string, b: char, drop: char -> bool)
    requires drop(a) && drop(b) && x != [] && !drop(x[0]) && !drop(x[|x| - 1])
    ensures Strip([a] + x + [b], drop) == x
  {
    var s := [a] + x + [b];
    assert s[1..] == x + [b] && s[1..][0] == x[0];
    assert Lead(s, drop) == 1;
    assert StripStart(s, drop) == x + [b];
    assert (x + [b])[..|x|] == x;
  }

  /** One trailing dropped character after a kept string is stripped away. */
  lemma StripTrailing(x: string, b: char, drop: char -> bool)
    requires drop(b) && x != [] && !drop(x[0]) && !drop(x[|x| - 1])
    ensures Strip(x + [b], drop) == x
  {
    var s := x + [b];
    assert s[0] == x[0];
    assert Lead(s, drop) == 0;
    assert StripStart(s, drop) == s;
    assert s[..|x|] == x;
  }
}

=== FILE: tk_gui.dfy ===
/**
 * The desktop (Tk) matrix-transform tool: sliders for scale, rotation and
 * shear build one fixed chain of 3x3 matrices that places the image on a
 * canvas four times its size; a text box shows the chain's 2x3 part and
 * accepts a hand-written matrix; the preview pans and zooms.
 */
module TkGui {
  import opened Wrappers
  import opened Affine
  import opened Text
  import opened Display
  import Compose

  /** The centre of the output canvas along one side: half of four times the image side. */
  function OutputCentre(side: real): real {
    (side * 4.0) / 2.0
  }

  /** Moves the source image's centre onto the output canvas's centre. */
  function ToOutputCentre(w: real, h: real): (t: Matrix3)
    ensures IsAffine(t)
  {
    Translate(OutputCentre(w) - w / 2.0, OutputCentre(h) - h / 2.0)
  }

  /** Moves the output canvas's centre to the origin. */
  function ToOrigin(w: real, h: real): (t: Matrix3)
    ensures IsAffine(t)
  {
    Translate(-OutputCentre(w), -OutputCentre(h))
  }

  /** Moves the origin back to the output canvas's centre. */
  function BackToCentre(w: real, h: real): (t: Matrix3)
    ensures IsAffine(t)
  {
    Translate(OutputCentre(w), OutputCentre(h))
  }

  function ScaleMatrix(sx: real, sy: real): (t: Matrix3)
    ensures IsLinear(t)
  {
    [[sx, 0.0, 0.0], [0.0, sy, 0.0], [0.0, 0.0, 1.0]]
  }

  /** The rotation by the angle whose cosine and sine are `c` and `s`. */
  function RotationMatrix(c: real, s: real): (t: Matrix3)
    ensures IsLinear(t)
  {
    [[c, -s, 0.0], [s, c, 0.0], [0.0, 0.0, 1.0]]
  }

  function ShearMatrix(hx: real, hy: real): (t: Matrix3)
    ensures IsLinear(t)
  {
    [[1.0, hx, 0.0], [hy, 1.0, 0.0], [0.0, 0.0, 1.0]]
  }

  /**
   * apply_transform's chain `translate_back @ shear @ rotation @ scale @
   * translate_to_origin @ translate_to_output_center`, multiplied left to
   * right as numpy evaluates it.
   */
  function Composite(w: real, h: real, sx: real, sy: real, c: real, s: real, hx: real, hy: real): (r: Matrix3)
    ensures Block(r) == Block(Mul(Mul(ShearMatrix(hx, hy), RotationMatrix(c, s)), ScaleMatrix(sx, sy)))
  {
    var x1 := Mul(BackToCentre(w, h), ShearMatrix(hx, hy));
    var x2 := Mul(x1, RotationMatrix(c, s));
    var x3 := Mul(x2, ScaleMatrix(sx, sy));
    var x4 := Mul(x3, ToOrigin(w, h));
    var sr := Mul(ShearMatrix(hx, hy), RotationMatrix(c, s));
    BlockMul(BackToCentre(w, h), ShearMatrix(hx, hy));
    BlockMul(x1, RotationMatrix(c, s));
    BlockMul(x2, ScaleMatrix(sx, sy));
    BlockMul(x3, ToOrigin(w, h));
    BlockMul(x4, ToOutputCentre(w, h));
    BlockMul(ShearMatrix(hx, hy), RotationMatrix(c, s));
    BlockMul(sr, ScaleMatrix(sx, sy));
    TranslateBlock(OutputCentre(w), OutputCentre(h), Block(ShearMatrix(hx, hy)));
    TranslateBlock(-OutputCentre(w), -OutputCentre(h), Block(x3));
    TranslateBlock(OutputCentre(w) - w / 2.0, OutputCentre(h) - h / 2.0, Block(x4));
    Mul(x4, ToOutputCentre(w, h))
  }

  /** The chain of affine matrices is affine. */
  lemma CompositeAffine(w: real, h: real, sx: real, sy: real, c: real, s: real, hx: real, hy: real)
    ensures IsAffine(Composite(w, h, sx, sy, c, s, hx, hy))
  {
    var x1 := Mul(BackToCentre(w, h), ShearMatrix(hx, hy));
    var x2 := Mul(x1, RotationMatrix(c, s));
    var x3 := Mul(x2, ScaleMatrix(sx, sy));
    var x4 := Mul(x3, ToOrigin(w, h));
    MulAffine(BackToCentre(w, h), ShearMatrix(hx, hy));
    MulAffine(x1, RotationMatrix(c, s));
    MulAffine(x2, ScaleMatrix(sx, sy));
    MulAffine(x3, ToOrigin(w, h));
    MulAffine(x4, ToOutputCentre(w, h));
  }

  /** The product apply_transform computes, factor by factor. */
  method ChainOf(w: real, h: real, v: SliderValues, c: real, s: real) returns (m: Matrix3)
    ensures m == Composite(w, h, v.scaleX, v.scaleY, c, s, v.shearX, v.shearY)
    ensures IsAffine(m)
  {
    m := Mat3Mul(BackToCentre(w, h), ShearMatrix(v.shearX, v.shearY));
    m := Mat3Mul(m, RotationMatrix(c, s));
    m := Mat3Mul(m, ScaleMatrix(v.scaleX, v.scaleY));
    m := Mat3Mul(m, ToOrigin(w, h));
    m := Mat3Mul(m, ToOutputCentre(w, h));
    CompositeAffine(w, h, v.scaleX, v.scaleY, c, s, v.shearX, v.shearY);
  }

  /**
   * The chain is applied right to left: a point is moved to the output
   * centre, shifted to the origin, scaled, rotated, sheared and shifted back.
   */
  lemma CompositeApplies(w: real, h: real, sx: real, sy: real, c: real, s: real, hx: real, hy: real, p: Point)
    ensures Apply(Composite(w, h, sx, sy, c, s, hx, hy), p)
         == Apply(BackToCentre(w, h), Apply(ShearMatrix(hx, hy), Apply(RotationMatrix(c, s),
              Apply(ScaleMatrix(sx, sy), Apply(ToOrigin(w, h), Apply(ToOutputCentre(w, h), p))))))
  {
    var x1 := Mul(BackToCentre(w, h), ShearMatrix(hx, hy));
    var x2 := Mul(x1, RotationMatrix(c, s));
    var x3 := Mul(x2, ScaleMatrix(sx, sy));
    var x4 := Mul(x3, ToOrigin(w, h));
    var q1 := Apply(ToOutputCentre(w, h), p);
    var q2 := Apply(ToOrigin(w, h), q1);
    var q3 := Apply(ScaleMatrix(sx, sy), q2);
    var q4 := Apply(RotationMatrix(c, s), q3);
    ApplyMul(x4, ToOutputCentre(w, h), p);
    ApplyMul(x3, ToOrigin(w, h), q1);
    ApplyMul(x2, ScaleMatrix(sx, sy), q2);
    ApplyMul(x1, RotationMatrix(c, s), q3);
    ApplyMul(BackToCentre(w, h), ShearMatrix(hx, hy), q4);
  }

  /** The centre of the w-by-h source lands on the centre (2w, 2h) of the 4w-by-4h canvas, whatever the sliders. */
  lemma CentreToCentre(w: real, h: real, sx: real, sy: real, c: real, s: real, hx: real, hy: real)
    ensures Apply(Composite(w, h, sx, sy, c, s, hx, hy), Point(w / 2.0, h / 2.0)) == Point(2.0 * w, 2.0 * h)
  {
    var p := Point(w / 2.0, h / 2.0);
    CompositeApplies(w, h, sx, sy, c, s, hx, hy, p);
    assert Apply(ToOutputCentre(w, h), p) == Point(OutputCentre(w), OutputCentre(h));
    assert Apply(ToOrigin(w, h), Point(OutputCentre(w), OutputCentre(h))) == Point(0.0, 0.0);
    assert Apply(ScaleMatrix(sx, sy), Point(0.0, 0.0)) == Point(0.0, 0.0);
    assert Apply(RotationMatrix(c, s), Point(0.0, 0.0)) == Point(0.0, 0.0);
    assert Apply(ShearMatrix(hx, hy), Point(0.0, 0.0)) == Point(0.0, 0.0);
  }

  /** With scale (1,1), no rotation and no shear, the chain is the shift by (1.5w, 1.5h). */
  lemma NeutralComposite(w: real, h: real)
    ensures Composite(w, h, 1.0, 1.0, 1.0, 0.0, 0.0, 0.0) == Translate(1.5 * w, 1.5 * h)
  {
    var b := BackToCentre(w, h);
    assert ShearMatrix(0.0, 0.0) == Identity;
    assert RotationMatrix(1.0, 0.0) == Identity;
    assert ScaleMatrix(1.0, 1.0) == Identity;
    MulIdentity(b);
    Compose.TranslateCancel(OutputCentre(w), OutputCentre(h));
    MulIdentity(ToOutputCentre(w, h));
    assert OutputCentre(w) - w / 2.0 == 1.5 * w && OutputCentre(h) - h / 2.0 == 1.5 * h;
  }

  /**
   * The 4w-by-4h canvas is not large enough for every slider position: at
   * scale 3 and shear 2 the corner (w, h) of the image lands beyond the
   * canvas's right or bottom edge, so warpAffine cuts it off.
   */
  lemma ExtremeSlidersLeaveCanvas(w: real, h: real)
    requires w > 0.0 && h > 0.0
    ensures var q := Apply(Composite(w, h, 3.0, 3.0, 1.0, 0.0, 2.0, 2.0), Point(w, h));
      q.x > 4.0 * w || q.y > 4.0 * h
  {
    CompositeApplies(w, h, 3.0, 3.0, 1.0, 0.0, 2.0, 2.0, Point(w, h));
    var q1 := Apply(ToOutputCentre(w, h), Point(w, h));
    assert q1 == Point(2.5 * w, 2.5 * h);
    var q2 := Apply(ToOrigin(w, h), q1);
    assert q2 == Point(0.5 * w, 0.5 * h);
    var q3 := Apply(ScaleMatrix(3.0, 3.0), q2);
    assert q3 == Point(1.5 * w, 1.5 * h);
    assert Apply(RotationMatrix(1.0, 0.0), q3) == q3;
    var q5 := Apply(ShearMatrix(2.0, 2.0), q3);
    assert q5 == Point(1.5 * w + 3.0 * h, 3.0 * w + 1.5 * h);
  }

  /**
   * The warp apply_custom_matrix uses: the typed matrix after the shift that
   * centres the source on the canvas.
   */
  function CustomWarp(custom: Matrix3, w: real, h: real): (r: Matrix3)
    ensures forall p :: Apply(r, p) == Apply(custom, Point(p.x + 1.5 * w, p.y + 1.5 * h))
    ensures IsAffine(custom) ==> IsAffine(r)
  {
    CentringShift(custom, w, h);
    MulAffine(custom, ToOutputCentre(w, h));
    Mul(custom, ToOutputCentre(w, h))
  }

  /** A matrix after the centring shift maps a point as it maps that point moved by (1.5w, 1.5h). */
  lemma CentringShift(custom: Matrix3, w: real, h: real)
    ensures forall p :: Apply(Mul(custom, ToOutputCentre(w, h)), p) == Apply(custom, Point(p.x + 1.5 * w, p.y + 1.5 * h))
  {
    var shift := ToOutputCentre(w, h);
    forall p
      ensures Apply(Mul(custom, shift), p) == Apply(custom, Point(p.x + 1.5 * w, p.y + 1.5 * h))
    {
      ApplyMul(custom, shift, p);
      assert Apply(shift, p) == Point(p.x + 1.5 * w, p.y + 1.5 * h);
    }
  }

  /**
   * The shown matrix already holds the centring shift, and apply_custom_matrix
   * adds it again: applying the matrix the sliders showed, unchanged, puts the
   * source centre at (3.5w, 3.5h) instead of the canvas centre (2w, 2h).
   */
  lemma ReappliedShiftsTwice(w: real, h: real)
    ensures var shown := Composite(w, h, 1.0, 1.0, 1.0, 0.0, 0.0, 0.0);
      Apply(CustomWarp(shown, w, h), Point(w / 2.0, h / 2.0)) == Point(3.5 * w, 3.5 * h)
  {
    NeutralComposite(w, h);
    var p := Point(w / 2.0, h / 2.0);
    ApplyMul(Translate(1.5 * w, 1.5 * h), ToOutputCentre(w, h), p);
    assert Apply(ToOutputCentre(w, h), p) == Point(2.0 * w, 2.0 * h);
  }

  /** Why apply_custom_matrix refused the text. */
  datatype CustomMatrixError = NotTwoLines | NotANumber | NotThreeValues

  /**
   * The lines of the typed matrix: whitespace stripped, then brackets
   * stripped from both ends, split at line feeds, each line stripped, blank
   * lines dropped.
   */
  function CustomLines(content: string): (ls: seq<string>)
    ensures forall i :: 0 <= i < |ls| ==> Trimmed(ls[i], IsSpace)
  {
    NonBlank(Split(Strip(Strip(content, IsSpace), IsBracket), '\n'))
  }

  /** `[float(x) for x in words]`: every word converted, or nothing when one of them is not a number. */
  function Floats(ws: seq<string>, toNumber: string -> Option<real>): (r: Option<seq<real>>)
    ensures r.Some? <==> forall i :: 0 <= i < |ws| ==> toNumber(ws[i]).Some?
    ensures r.Some? ==> |r.value| == |ws| && forall i :: 0 <= i < |ws| ==> toNumber(ws[i]) == Some(r.value[i])
  {
    if ws == [] then Some([])
    else
      var rest := Floats(ws[1..], toNumber);
      match toNumber(ws[0])
      case None => None
      case Some(v) =>
        if rest.None? then None
        else
          assert forall i :: 1 <= i < |ws| ==> ws[1..][i - 1] == ws[i];
          Some([v] + rest.value)
  }

  /**
   * One typed line: brackets deleted, split at whitespace, each word
   * converted; a word that is not a number is refused before the count of
   * three is checked.
   */
  function LineValues(line: string, toNumber: string -> Option<real>): (r: Result<seq<real>, CustomMatrixError>)
    ensures r.Ok? ==> |r.value| == 3
    ensures r.Err? ==> r.error != NotTwoLines
    ensures var ws := Words(Remove(line, IsBracket));
      r.Ok? <==> |ws| == 3 && forall i :: 0 <= i < 3 ==> toNumber(ws[i]).Some?
    ensures var ws := Words(Remove(line, IsBracket));
      r.Ok? ==> forall i :: 0 <= i < 3 ==> toNumber(ws[i]) == Some(r.value[i])
  {
    var vs := Floats(Words(Remove(line, IsBracket)), toNumber);
    if vs.None? then Err(NotANumber)
    else if |vs.value| != 3 then Err(NotThreeValues)
    else Ok(vs.value)
  }

  /** The loop over the lines: every line's values in order, or the first line's error. */
  function Rows(lines: seq<string>, toNumber: string -> Option<real>): (r: Result<seq<seq<real>>, CustomMatrixError>)
    ensures r.Ok? ==> |r.value| == |lines| && forall i :: 0 <= i < |r.value| ==> |r.value[i]| == 3
    ensures r.Err? ==> r.error != NotTwoLines
  {
    if lines == [] then Ok([])
    else
      var v := LineValues(lines[0], toNumber);
      var rest := Rows(lines[1..], toNumber);
      if v.Err? then Err(v.error)
      else if rest.Err? then rest
      else Ok([v.value] + rest.value)
  }

  /** The matrix made of the typed lines: two lines of three numbers, completed with [0, 0, 1]. */
  function MatrixOfLines(lines: seq<string>, toNumber: string -> Option<real>): (r: Result<Matrix3, CustomMatrixError>)
    ensures r.Ok? ==> IsAffine(r.value)
  {
    if |lines| != 2 then Err(NotTwoLines)
    else
      var rows := Rows(lines, toNumber);
      if rows.Err? then Err(rows.error)
      else Ok([rows.value[0], rows.value[1], [0.0, 0.0, 1.0]])
  }

  /** The matrix apply_custom_matrix reads from the text box. */
  function CustomMatrix(content: string, toNumber: string -> Option<real>): (r: Result<Matrix3, CustomMatrixError>)
    ensures r.Ok? ==> IsAffine(r.value)
  {
    MatrixOfLines(CustomLines(content), toNumber)
  }

  /** The cases of MatrixOfLines, line by line. */
  lemma LinesCases(lines: seq<string>, toNumber: string -> Option<real>)
    ensures var r := MatrixOfLines(lines, toNumber);
      (r == Err(NotTwoLines) <==> |lines| != 2) &&
      (r.Ok? <==> |lines| == 2 && LineValues(lines[0], toNumber).Ok? && LineValues(lines[1], toNumber).Ok?) &&
      (|lines| == 2 && LineValues(lines[0], toNumber).Err? ==> r == Err(LineValues(lines[0], toNumber).error)) &&
      (r.Ok? ==> LineValues(lines[0], toNumber) == Ok(r.value[0]) && LineValues(lines[1], toNumber) == Ok(r.value[1]))
  {
    if |lines| == 2 {
      var v0, v1 := LineValues(lines[0], toNumber), LineValues(lines[1], toNumber);
      assert lines[1..] == [lines[1]] && lines[1..][1..] == [];
      assert Rows([], toNumber) == Ok([]);
      if v0.Err? {
        assert Rows(lines, toNumber) == Err(v0.error);
      } else if v1.Err? {
        assert lines[1..][0] == lines[1];
        assert Rows(lines[1..], toNumber) == Err(v1.error);
        assert Rows(lines, toNumber) == Err(v1.error);
      } else {
        assert lines[1..][0] == lines[1] && [v1.value] + [] == [v1.value];
        assert Rows(lines[1..], toNumber) == Ok([v1.value]);
        assert Rows(lines, toNumber) == Ok([v0.value] + [v1.value]);
      }
    }
  }

  /**
   * What apply_custom_matrix accepts: exactly two non-blank lines, each of
   * exactly three numbers; the first bad line decides the error; an accepted
   * text gives the matrix of its numbers with bottom row [0, 0, 1].
   */
  lemma CustomMatrixCases(content: string, toNumber: string -> Option<real>)
    ensures var r := CustomMatrix(content, toNumber); var lines := CustomLines(content);
      (r == Err(NotTwoLines) <==> |lines| != 2) &&
      (r.Ok? <==> |lines| == 2 && LineValues(lines[0], toNumber).Ok? && LineValues(lines[1], toNumber).Ok?) &&
      (|lines| == 2 && LineValues(lines[0], toNumber).Err? ==> r == Err(LineValues(lines[0], toNumber).error)) &&
      (r.Ok? ==> LineValues(lines[0], toNumber) == Ok(r.value[0]) && LineValues(lines[1], toNumber) == Ok(r.value[1]))
  {
    LinesCases(CustomLines(content), toNumber);
  }

  /** The values still to read, after the rows already read. */
  function After(rows: seq<seq<real>>, rest: Result<seq<seq<real>>, CustomMatrixError>): Result<seq<seq<real>>, CustomMatrixError> {
    if rest.Err? then rest else Ok(rows + rest.value)
  }

  /** `for line in lines`: the rows of apply_custom_matrix, line by line, stopping at the first bad line. */
  method ReadRows(lines: seq<string>, toNumber: string -> Option<real>) returns (r: Result<seq<seq<real>>, CustomMatrixError>)
    ensures r == Rows(lines, toNumber)
  {
    var rows: seq<seq<real>> := [];
    assert lines[0..] == lines;
    ghost var all := Rows(lines, toNumber);
    if all.Ok? {
      assert rows + all.value == all.value;
    }
    for i := 0 to |lines|
      invariant Rows(lines, toNumber) == After(rows, Rows(lines[i..], toNumber))
    {
      assert lines[i..][0] == lines[i] && lines[i..][1..] == lines[i + 1..];
      var values := LineValues(lines[i], toNumber);
      ghost var rest := Rows(lines[i + 1..], toNumber);
      if values.Err? {
        assert Rows(lines[i..], toNumber) == Err(values.error);
        return Err(values.error);
      }
      if rest.Ok? {
        assert Rows(lines[i..], toNumber) == Ok([values.value] + rest.value);
        assert rows + ([values.value] + rest.value) == (rows + [values.value]) + rest.value;
      } else {
        assert Rows(lines[i..], toNumber) == rest;
      }
      rows := rows + [values.value];
    }
    assert lines[|lines|..] == [];
    assert rows + [] == rows;
    r := Ok(rows);
  }

  /** The checks of apply_custom_matrix after the text is cut into lines: two lines, then each line's values. */
  method ReadMatrixLines(lines: seq<string>, toNumber: string -> Option<real>) returns (r: Result<Matrix3, CustomMatrixError>)
    ensures r == MatrixOfLines(lines, toNumber)
  {
    if |lines| != 2 {
      return Err(NotTwoLines);
    }
    var rows := ReadRows(lines, toNumber);
    if rows.Err? {
      return Err(rows.error);
    }
    r := Ok([rows.value[0], rows.value[1], [0.0, 0.0, 1.0]]);
  }

  /** The 2x3 part of a matrix as update_matrix_display writes it: each value as `{x:7.3f}`. */
  const DisplayWidth: nat := 7

  /** A bracketed text between line feeds, with a trailing line feed, strips back to what the brackets hold. */
  lemma StripBracketed(inner: string)
    requires |inner| >= 2 && inner[0] == '\n' && inner[|inner| - 1] == '\n'
    ensures Strip(Strip(['['] + inner + [']'] + "\n", IsSpace), IsBracket) == inner
  {
    var framed := ['['] + inner + [']'];
    assert framed[0] == '[' && framed[|framed| - 1] == ']';
    StripTrailing(framed, '\n', IsSpace);
    StripBoth('[', inner, ']', IsBracket);
  }

  /** Stripping the handed-back text of whitespace and then of brackets leaves the rows between line feeds. */
  lemma ShownInner(r0: string, r1: string)
    ensures Strip(Strip(Frame(r0, r1) + "\n", IsSpace), IsBracket) == "\n" + (r0 + ("\n" + (r1 + "\n")))
  {
    var inner := "\n" + (r0 + ("\n" + (r1 + "\n")));
    assert Frame(r0, r1) == ['['] + inner + [']'];
    StripBracketed(inner);
  }

  /** The lines of the shown text, read back as the text box hands it over with its trailing line feed. */
  lemma ShownLines(r0: string, r1: string)
    requires Plain(r0) && Plain(r1)
    requires Strip(r0, IsSpace) != [] && Strip(r1, IsSpace) != []
    ensures CustomLines(Frame(r0, r1) + "\n") == [Strip(r0, IsSpace), Strip(r1, IsSpace)]
  {
    ShownInner(r0, r1);
    PlainNoNewline(r0);
    PlainNoNewline(r1);
    SplitFrame(r0, r1);
    NonBlankFrame(r0, r1);
  }

  /** A plain line of three convertible words reads as their three numbers. */
  lemma LineReadsAs(t: string, a0: string, a1: string, a2: string, toNumber: string -> Option<real>)
    requires Plain(t) && Words(t) == [a0, a1, a2]
    requires toNumber(a0).Some? && toNumber(a1).Some? && toNumber(a2).Some?
    ensures LineValues(t, toNumber) == Ok([ValueOf(a0, toNumber), ValueOf(a1, toNumber), ValueOf(a2, toNumber)])
  {
    RemoveNone(t, IsBracket);
    var ws := Words(t);
    assert ws[0] == a0 && ws[1] == a1 && ws[2] == a2;
    var vs := Floats(ws, toNumber);
    assert vs.Some?;
    assert vs.value == [ValueOf(a0, toNumber), ValueOf(a1, toNumber), ValueOf(a2, toNumber)];
  }

  /** Two lines of three convertible words each read as the matrix of their numbers. */
  lemma LinesReadAs(content: string, t0: string, t1: string, a0: string, a1: string, a2: string,
                    b0: string, b1: string, b2: string, toNumber: string -> Option<real>)
    requires CustomLines(content) == [t0, t1]
    requires Plain(t0) && Plain(t1)
    requires Words(t0) == [a0, a1, a2] && Words(t1) == [b0, b1, b2]
    requires toNumber(a0).Some? && toNumber(a1).Some? && toNumber(a2).Some?
    requires toNumber(b0).Some? && toNumber(b1).Some? && toNumber(b2).Some?
    ensures CustomMatrix(content, toNumber) ==
      Ok([[ValueOf(a0, toNumber), ValueOf(a1, toNumber), ValueOf(a2, toNumber)],
          [ValueOf(b0, toNumber), ValueOf(b1, toNumber), ValueOf(b2, toNumber)],
          [0.0, 0.0, 1.0]])
  {
    LineReadsAs(t0, a0, a1, a2, toNumber);
    LineReadsAs(t1, b0, b1, b2, toNumber);
    LinesCases([t0, t1], toNumber);
  }

  /**
   * The text update_matrix_display writes, handed back by the text box,
   * reads as the matrix of the values it shows.
   */
  lemma DisplayReadsBack(m: Matrix3, show: real -> string, toNumber: string -> Option<real>)
    requires ReadsBack(m, show, toNumber)
    ensures CustomMatrix(MatrixText(m, show, DisplayWidth) + "\n", toNumber) == Ok(ShownMatrix(m, show, toNumber))
  {
    var a0, a1, a2 := show(m[0][0]), show(m[0][1]), show(m[0][2]);
    var b0, b1, b2 := show(m[1][0]), show(m[1][1]), show(m[1][2]);
    assert Shown(a0) && Shown(a1) && Shown(a2) && Shown(b0) && Shown(b1) && Shown(b2);
    assert toNumber(a0).Some? && toNumber(a1).Some? && toNumber(a2).Some?;
    assert toNumber(b0).Some? && toNumber(b1).Some? && toNumber(b2).Some?;
    var r0, r1 := RowText(a0, a1, a2, DisplayWidth), RowText(b0, b1, b2, DisplayWidth);
    RowFacts(a0, a1, a2, DisplayWidth);
    RowFacts(b0, b1, b2, DisplayWidth);
    ShownLines(r0, r1);
    LinesReadAs(Frame(r0, r1) + "\n", Strip(r0, IsSpace), Strip(r1, IsSpace), a0, a1, a2, b0, b1, b2, toNumber);
  }

  /** When every value is written exactly, the shown matrix reads back as itself. */
  lemma DisplayRoundTrip(m: Matrix3, show: real -> string, toNumber: string -> Option<real>)
    requires IsAffine(m) && ReadsBack(m, show, toNumber)
    requires forall i, j :: 0 <= i < 2 && 0 <= j < 3 ==> toNumber(show(m[i][j])) == Some(m[i][j])
    ensures CustomMatrix(MatrixText(m, show, DisplayWidth) + "\n", toNumber) == Ok(m)
  {
    DisplayReadsBack(m, show, toNumber);
    ShownExactly(m, show, toNumber);
  }

  /** The zoom range the view keeps to. */
  predicate InZoomRange(z: real) {
    0.1 <= z <= 10.0
  }

  /** zoom_in: the zoom times 1.25, kept only when it stays at or below 10. */
  function ZoomedIn(z: real): (r: real)
    ensures z * 1.25 <= 10.0 ==> r == z * 1.25
    ensures z * 1.25 > 10.0 ==> r == z
    ensures InZoomRange(z) ==> InZoomRange(r)
  {
    var candidate := z * 1.25;
    if candidate <= 10.0 then candidate else z
  }

  /** zoom_out: the zoom times 0.8, kept only when it stays at or above 0.1. */
  function ZoomedOut(z: real): (r: real)
    ensures z * 0.8 >= 0.1 ==> r == z * 0.8
    ensures z * 0.8 < 0.1 ==> r == z
    ensures InZoomRange(z) ==> InZoomRange(r)
  {
    var candidate := z * 0.8;
    if candidate >= 0.1 then candidate else z
  }

  /** The wheel, ctrl-scroll and pinch handlers: the zoom times `factor`, kept only inside [0.1, 10]. */
  function Zoomed(z: real, factor: real): (r: real)
    ensures InZoomRange(z * factor) ==> r == z * factor
    ensures !InZoomRange(z * factor) ==> r == z
    ensures InZoomRange(z) ==> InZoomRange(r)
  {
    var candidate := z * factor;
    if 0.1 <= candidate && candidate <= 10.0 then candidate else z
  }

  /** on_mouse_wheel's factor: button 4 or a positive delta zooms in, button 5 or a negative delta out, anything else is ignored. */
  function WheelFactor(num: int, delta: int): (f: Option<real>)
    ensures (num == 4 || delta > 0) <==> f == Some(1.05)
    ensures (num != 4 && delta <= 0 && (num == 5 || delta < 0)) <==> f == Some(0.95)
  {
    if num == 4 || delta > 0 then Some(1.05)
    else if num == 5 || delta < 0 then Some(0.95)
    else None
  }

  /** on_ctrl_scroll's factor: a positive delta zooms in, a negative one out, zero is ignored. */
  function CtrlFactor(delta: int): (f: Option<real>)
    ensures delta > 0 <==> f == Some(1.15)
    ensures delta < 0 <==> f == Some(0.85)
  {
    if delta > 0 then Some(1.15)
    else if delta < 0 then Some(0.85)
    else None
  }

  /**
   * The view offset after dragging through `pointers` in turn, starting at
   * `start`.  Every drag adds its step from the previous pointer position,
   * so over a press and several drags the offset grows by the last pointer
   * position minus the press point.
   */
  function DragOffset(offset: int, start: int, pointers: seq<int>): (r: int)
    ensures pointers != [] ==> r == offset + (pointers[|pointers| - 1] - start)
    decreases |pointers|
  {
    if pointers == [] then offset
    else
      var rest := pointers[1..];
      assert rest != [] ==> rest[|rest| - 1] == pointers[|pointers| - 1];
      DragOffset(offset + (pointers[0] - start), pointers[0], rest)
  }

  /** A multiple of a full turn. */
  function Turns(k: int): real {
    360.0 * k as real
  }

  /** `r` names the same direction as `a`: they differ by whole turns. */
  ghost predicate SameDirection(a: real, r: real) {
    exists k: int :: r == a + Turns(k)
  }

  /**
   * on_rotate_gesture's normalisation: subtract whole turns while above
   * 180, then add whole turns while below -180.
   */
  method NormalizeAngle(a: real) returns (r: real)
    ensures -180.0 <= r <= 180.0
    ensures SameDirection(a, r)
    ensures -180.0 <= a <= 180.0 ==> r == a
    ensures a > 180.0 ==> r > -180.0
    ensures a < -180.0 ==> r < 180.0
  {
    r := a;
    ghost var k: int := 0;
    while r > 180.0
      invariant r == a + Turns(k)
      invariant a <= 180.0 ==> r == a
      invariant a > 180.0 ==> r > -180.0
      decreases (r - 180.0).Floor
    {
      r, k := r - 360.0, k - 1;
    }
    while r < -180.0
      invariant r == a + Turns(k) && r <= 180.0
      invariant -180.0 <= a <= 180.0 ==> r == a
      invariant a > 180.0 ==> r > -180.0
      invariant a < -180.0 ==> r < 180.0
      decreases (-180.0 - r).Floor
    {
      r, k := r + 360.0, k + 1;
    }
  }

  /** The five slider variables: scale, rotation in degrees, shear. */
  datatype SliderValues = SliderValues(scaleX: real, scaleY: real, rotation: real, shearX: real, shearY: real)

  /** The slider positions __init__ and reset_all set: scale 1, no rotation, no shear. */
  const NeutralSliders: SliderValues := SliderValues(1.0, 1.0, 0.0, 0.0, 0.0)

  /** The size of the loaded image. */
  datatype Size = Size(w: nat, h: nat)

  /** The image on show: its size and the matrix the original was warped with to make it. */
  datatype Picture = Picture(w: nat, h: nat, warp: Matrix3)

  /** The original itself, unwarped. */
  function Unwarped(size: Size): Picture {
    Picture(size.w, size.h, Identity)
  }

  /** The original warped by `m` onto the canvas four times its size. */
  function Warped(size: Size, m: Matrix3): Picture {
    Picture(4 * size.w, 4 * size.h, m)
  }

  /** The pan offsets and the zoom of the preview. */
  datatype View = View(offsetX: int, offsetY: int, zoom: real)

  /** reset_view's view: no pan, 100% zoom. */
  const HomeView: View := View(0, 0, 1.0)

  /** The tool's state: the images, the slider variables, the matrices, the text box and the view. */
  class TransformGui {
    var original: Option<Size>
    var current: Option<Picture>
    var sliders: SliderValues
    var transformMatrix: Matrix3
    /**
     * The matrix update_matrix_display last wrote into the text box: the box
     * holds MatrixText(displayed, show, DisplayWidth) for the formatter `show`.
     */
    var displayed: Matrix3
    var view: View
    var dragStartX: int
    var dragStartY: int

    /** The stored matrix is affine, and an original image always has an image on show. */
    predicate Valid()
      reads this
    {
      IsAffine(transformMatrix) && (original.Some? ==> current.Some?)
    }

    predicate ZoomInRange()
      reads this
    {
      InZoomRange(view.zoom)
    }

    /** __init__ and setup_ui: no image, identity matrix, neutral sliders and view; the text box shows the identity. */
    constructor()
      ensures Valid() && ZoomInRange()
      ensures original == None && current == None
      ensures sliders == NeutralSliders && transformMatrix == Identity && displayed == Identity
      ensures view == HomeView && dragStartX == 0 && dragStartY == 0
    {
      original, current := None, None;
      sliders := NeutralSliders;
      transformMatrix, displayed := Identity, Identity;
      view := HomeView;
      dragStartX, dragStartY := 0, 0;
    }

    /**
     * apply_transform: the chain of the current sliders becomes the stored
     * matrix, the image on show is the original warped by it onto the
     * 4w-by-4h canvas, and the text box shows it.  `c` and `s` are the
     * cosine and sine of the rotation slider's angle.
     */
    method ApplyTransform(c: real, s: real)
      requires Valid()
      modifies this`transformMatrix, this`current, this`displayed
      ensures Valid()
      ensures original == None ==> unchanged(this)
      ensures original.Some? ==>
        var size := original.value;
        var m := Composite(size.w as real, size.h as real, sliders.scaleX, sliders.scaleY, c, s, sliders.shearX, sliders.shearY);
        transformMatrix == m && displayed == m && current == Some(Warped(size, m))
    {
      if original == None {
        return;
      }
      var m := ChainOf(original.value.w as real, original.value.h as real, sliders, c, s);
      ShowWarped(m);
    }

    /** The tail of apply_transform: the product is stored, the original warped by it, and the text box rewritten. */
    method ShowWarped(m: Matrix3)
      requires Valid() && IsAffine(m) && original.Some?
      modifies this`transformMatrix, this`current, this`displayed
      ensures Valid()
      ensures transformMatrix == m && displayed == m && current == Some(Warped(original.value, m))
    {
      transformMatrix := m;
      current := Some(Warped(original.value, m));
      displayed := m;
    }

    /** on_transform_change: a slider moved; the chain is applied when there is an image. */
    method MoveSliders(moved: SliderValues, c: real, s: real)
      requires Valid()
      modifies this`sliders, this`transformMatrix, this`current, this`displayed
      ensures Valid()
      ensures sliders == moved
      ensures original == None ==> transformMatrix == old(transformMatrix) && current == old(current) && displayed == old(displayed)
      ensures original.Some? ==>
        var size := original.value;
        transformMatrix == Composite(size.w as real, size.h as real, moved.scaleX, moved.scaleY, c, s, moved.shearX, moved.shearY) &&
        current == Some(Warped(size, transformMatrix)) && displayed == transformMatrix
    {
      sliders := moved;
      ApplyTransform(c, s);
    }

    /**
     * apply_custom_matrix, reading `content` from the text box: a refused
     * text changes nothing; an accepted one becomes the stored matrix and,
     * when there is an image, the image on show is the original warped by
     * it after the centring shift.  The returned value is what the dialog
     * reports.
     */
    method ApplyCustomMatrix(content: string, toNumber: string -> Option<real>) returns (r: Result<Matrix3, CustomMatrixError>)
      requires Valid()
      modifies this`transformMatrix, this`current
      ensures Valid()
      ensures r == CustomMatrix(content, toNumber)
      ensures r.Err? ==> unchanged(this)
      ensures r.Ok? ==> transformMatrix == r.value
      ensures r.Ok? && original == None ==> current == old(current)
      ensures r.Ok? && original.Some? ==> current == Some(Warped(original.value, CustomWarp(r.value, original.value.w as real, original.value.h as real)))
    {
      var lines := CustomLines(content);
      r := ReadMatrixLines(lines, toNumber);
      if r.Ok? {
        UseCustomMatrix(r.value);
      }
    }

    /**
     * The tail of apply_custom_matrix once the text is accepted: the matrix
     * is stored and, when there is an image, the original is warped by it
     * after the centring shift onto the 4w-by-4h canvas.  The text box is
     * not rewritten.
     */
    method UseCustomMatrix(custom: Matrix3)
      requires Valid() && IsAffine(custom)
      modifies this`transformMatrix, this`current
      ensures Valid()
      ensures transformMatrix == custom
      ensures original == None ==> current == old(current)
      ensures original.Some? ==> current == Some(Warped(original.value, CustomWarp(custom, original.value.w as real, original.value.h as real)))
    {
      transformMatrix := custom;
      if original.Some? {
        var size := original.value;
        var final := Mat3Mul(custom, ToOutputCentre(size.w as real, size.h as real));
        current := Some(Warped(size, final));
      }
    }

    /**
     * reset_scale: both scale variables back to 1.  Writing a Tk variable
     * from code does not run the slider's command, so the chain is not
     * applied again.
     */
    method ResetScale()
      modifies this`sliders
      ensures sliders == old(sliders).(scaleX := 1.0, scaleY := 1.0)
    {
      sliders := sliders.(scaleX := 1.0, scaleY := 1.0);
    }

    /** set_rotation: the rotation variable set to a preset angle, without applying the chain. */
    method SetRotation(angle: real)
      modifies this`sliders
      ensures sliders == old(sliders).(rotation := angle)
    {
      sliders := sliders.(rotation := angle);
    }

    /** reset_view: no pan, 100% zoom. */
    method ResetView()
      modifies this`view
      ensures view == HomeView && ZoomInRange()
    {
      view := HomeView;
    }

    /**
     * reset_all: neutral sliders and the identity matrix; with an image, the
     * original is on show again, the view is reset and the text box shows
     * the identity.
     */
    method ResetAll()
      requires Valid()
      modifies this`sliders, this`transformMatrix, this`current, this`view, this`displayed
      ensures Valid()
      ensures sliders == NeutralSliders && transformMatrix == Identity
      ensures original.Some? ==> current == Some(Unwarped(original.value)) && view == HomeView && displayed == Identity
      ensures original == None ==> current == old(current) && view == old(view) && displayed == old(displayed)
    {
      sliders := NeutralSliders;
      transformMatrix := Identity;
      if original.Some? {
        current := Some(Unwarped(original.value));
        ResetView();
        displayed := Identity;
      }
    }

    /** load_image after a successful read: the image and an unwarped copy, then reset_all. */
    method ImageLoaded(size: Size)
      requires Valid()
      modifies this`original, this`sliders, this`transformMatrix, this`current, this`view, this`displayed
      ensures Valid() && ZoomInRange()
      ensures original == Some(size) && current == Some(Unwarped(size))
      ensures sliders == NeutralSliders && transformMatrix == Identity && displayed == Identity && view == HomeView
    {
      original := Some(size);
      current := Some(Unwarped(size));
      ResetAll();
    }

    /**
     * load_image when the file cannot be read: original_image is cleared
     * before the error is raised, while the image on show stays.
     */
    method LoadFailed()
      modifies this`original
      ensures original == None
      ensures old(Valid()) ==> Valid()
    {
      original := None;
    }

    /** zoom_in. */
    method ZoomIn()
      modifies this`view
      ensures view == old(view).(zoom := ZoomedIn(old(view.zoom)))
    {
      var newZoom := view.zoom * 1.25;
      if newZoom <= 10.0 {
        view := view.(zoom := newZoom);
      }
    }

    /** zoom_out. */
    method ZoomOut()
      modifies this`view
      ensures view == old(view).(zoom := ZoomedOut(old(view.zoom)))
    {
      var newZoom := view.zoom * 0.8;
      if newZoom >= 0.1 {
        view := view.(zoom := newZoom);
      }
    }

    /** set_zoom (the 25/50/100/200% buttons): the given level, and the pan cleared. */
    method SetZoom(level: real)
      modifies this`view
      ensures view == View(0, 0, level)
    {
      view := View(0, 0, level);
    }

    /** on_mouse_wheel: ignored without an image on show or without a direction. */
    method MouseWheel(num: int, delta: int)
      modifies this`view
      ensures current == None || WheelFactor(num, delta).None? ==> view == old(view)
      ensures current.Some? && WheelFactor(num, delta).Some? ==>
        view == old(view).(zoom := Zoomed(old(view.zoom), WheelFactor(num, delta).value))
    {
      if current == None {
        return;
      }
      var factor: real;
      if num == 4 || delta > 0 {
        factor := 1.05;
      } else if num == 5 || delta < 0 {
        factor := 0.95;
      } else {
        return;
      }
      var newZoom := view.zoom * factor;
      if 0.1 <= newZoom && newZoom <= 10.0 {
        view := view.(zoom := newZoom);
      }
    }

    /** on_ctrl_scroll: ignored without an image on show or with a zero delta. */
    method CtrlScroll(delta: int)
      modifies this`view
      ensures current == None || delta == 0 ==> view == old(view)
      ensures current.Some? && delta != 0 ==> view == old(view).(zoom := Zoomed(old(view.zoom), CtrlFactor(delta).value))
    {
      if current == None {
        return;
      }
      var factor: real;
      if delta > 0 {
        factor := 1.15;
      } else if delta < 0 {
        factor := 0.85;
      } else {
        return;
      }
      var newZoom := view.zoom * factor;
      if 0.1 <= newZoom && newZoom <= 10.0 {
        view := view.(zoom := newZoom);
      }
    }

    /** on_magnify: the pinch's delta is the change of scale. */
    method Magnify(delta: real)
      modifies this`view
      ensures current == None ==> view == old(view)
      ensures current.Some? ==> view == old(view).(zoom := Zoomed(old(view.zoom), 1.0 + delta))
    {
      if current == None {
        return;
      }
      var factor := 1.0 + delta;
      var newZoom := view.zoom * factor;
      if 0.1 <= newZoom && newZoom <= 10.0 {
        view := view.(zoom := newZoom);
      }
    }

    /** on_mouse_press: the drag starts at the pointer. */
    method MousePress(x: int, y: int)
      modifies this`dragStartX, this`dragStartY
      ensures dragStartX == x && dragStartY == y
    {
      dragStartX, dragStartY := x, y;
    }

    /** on_mouse_drag: the view moves by the pointer's displacement and the drag restarts at the pointer. */
    method MouseDrag(x: int, y: int)
      modifies this`view, this`dragStartX, this`dragStartY
      ensures current == None ==> unchanged(this)
      ensures current.Some? ==>
        view == old(view).(offsetX := DragOffset(old(view.offsetX), old(dragStartX), [x]),
                           offsetY := DragOffset(old(view.offsetY), old(dragStartY), [y])) &&
        dragStartX == x && dragStartY == y
    {
      if current == None {
        return;
      }
      var dx := x - dragStartX;
      var dy := y - dragStartY;
      view := view.(offsetX := view.offsetX + dx, offsetY := view.offsetY + dy);
      dragStartX, dragStartY := x, y;
    }

    /** on_rotate_gesture: the rotation variable turns by the gesture, normalised into [-180, 180]. */
    method RotateGesture(delta: real)
      modifies this`sliders
      ensures current == None ==> sliders == old(sliders)
      ensures current.Some? ==>
        sliders == old(sliders).(rotation := sliders.rotation) &&
        -180.0 <= sliders.rotation <= 180.0 && SameDirection(old(sliders.rotation) + delta, sliders.rotation)
    ensures current.Some? ==> var a := old(sliders.rotation) + delta;
      (-180.0 <= a <= 180.0 ==> sliders.rotation == a) &&
      (a > 180.0 ==> sliders.rotation > -180.0) &&
      (a < -180.0 ==> sliders.rotation < 180.0)
    {
      if current == None {
        return;
      }
      var newRotation := NormalizeAngle(sliders.rotation + delta);
      sliders := sliders.(rotation := newRotation);
    }
  }
}

=== FILE: web_session.dfy ===
/**
 * The web studio's session state: the three 2x2 blocks, the order they are
 * applied in, the placed combined matrix, the slider positions and the
 * pan/zoom view, with the handlers that change them.
 */
module WebStudio {
  import opened Wrappers
  import opened Affine
  import opened Canvas
  import opened Compose
  import opened Text
  import opened Display

  /**
   * Slider positions.  The rotation slider holds an angle in degrees; the
   * model keeps the cosine and sine of that angle instead.
   */
  datatype Sliders = Sliders(scaleX: real, scaleY: real, rotCos: real, rotSin: real, shearX: real, shearY: real)

  /** The positions resetAll restores: scale 1, rotation 0, shear 0. */
  const ResetSliders: Sliders := Sliders(1.0, 1.0, 1.0, 0.0, 0.0, 0.0)

  /** The range of the scale sliders. */
  predicate ScaleRange(v: real) {
    0.1 <= v <= 3.0
  }

  /** The range of the shear sliders. */
  predicate ShearRange(v: real) {
    -2.0 <= v <= 2.0
  }

  /** Every scale and shear slider is within its range. */
  predicate InRange(s: Sliders) {
    ScaleRange(s.scaleX) && ScaleRange(s.scaleY) && ShearRange(s.shearX) && ShearRange(s.shearY)
  }

  /** The sliders of one kind sit at their reset positions. */
  predicate AtRest(key: Kind, s: Sliders) {
    match key
    case Scale => s.scaleX == 1.0 && s.scaleY == 1.0
    case Rotation => s.rotCos == 1.0 && s.rotSin == 0.0
    case Shear => s.shearX == 0.0 && s.shearY == 0.0
  }

  /**
   * buildMatrixFromSliders: the 2x2 block one kind of slider describes.  It
   * is the identity exactly when that kind's sliders are at rest.
   */
  function SliderBlock(key: Kind, s: Sliders): (r: Matrix2)
    ensures r == Identity2 <==> AtRest(key, s)
  {
    match key
    case Scale => [[s.scaleX, 0.0], [0.0, s.scaleY]]
    case Rotation => [[s.rotCos, -s.rotSin], [s.rotSin, s.rotCos]]
    case Shear => [[1.0, s.shearX], [s.shearY, 1.0]]
  }

  /** The three blocks applyTransform rebuilds from the sliders. */
  function SliderBlocks(s: Sliders): (ms: map<Kind, Matrix2>)
    ensures Complete(ms)
  {
    var ms := map[Scale := SliderBlock(Scale, s), Rotation := SliderBlock(Rotation, s), Shear := SliderBlock(Shear, s)];
    ThreeKeys(ms);
    ms
  }

  /** Each rebuilt block is the one its own sliders describe. */
  lemma SliderBlocksByKind(s: Sliders)
    ensures forall k: Kind :: SliderBlocks(s)[k] == SliderBlock(k, s)
  {
    forall k: Kind
      ensures SliderBlocks(s)[k] == SliderBlock(k, s)
    {
      match k
      case Scale =>
      case Rotation =>
      case Shear =>
    }
  }

  /** The blocks resetAll restores: the identity for every kind. */
  const IdentityBlocks: map<Kind, Matrix2> := map[Scale := Identity2, Rotation := Identity2, Shear := Identity2]

  /**
   * The reset blocks are complete, each is the identity, and they are
   * exactly the blocks the reset sliders describe.
   */
  lemma ResetBlocks()
    ensures Complete(IdentityBlocks) && forall k: Kind :: IdentityBlocks[k] == Identity2
    ensures IdentityBlocks == SliderBlocks(ResetSliders)
  {
    ThreeKeys(IdentityBlocks);
    var sb := SliderBlocks(ResetSliders);
    assert sb[Scale] == Identity2 && sb[Rotation] == Identity2 && sb[Shear] == Identity2;
  }

  /**
   * syncSlidersFromMatrix for the scale and shear kinds: a slider follows
   * its matrix entry only when the entry is within the slider's range, and
   * keeps its position otherwise.  The rotation slider is not touched here.
   */
  function SyncedSliders(key: Kind, m: Matrix2, s: Sliders): (r: Sliders)
    ensures r.rotCos == s.rotCos && r.rotSin == s.rotSin
    ensures key != Scale ==> r.scaleX == s.scaleX && r.scaleY == s.scaleY
    ensures key != Shear ==> r.shearX == s.shearX && r.shearY == s.shearY
    ensures key == Scale ==> r.scaleX == (if ScaleRange(m[0][0]) then m[0][0] else s.scaleX)
    ensures key == Scale ==> r.scaleY == (if ScaleRange(m[1][1]) then m[1][1] else s.scaleY)
    ensures key == Shear ==> r.shearX == (if ShearRange(m[0][1]) then m[0][1] else s.shearX)
    ensures key == Shear ==> r.shearY == (if ShearRange(m[1][0]) then m[1][0] else s.shearY)
  {
    match key
    case Scale =>
      var sx, sy := m[0][0], m[1][1];
      s.(scaleX := if ScaleRange(sx) then sx else s.scaleX,
         scaleY := if ScaleRange(sy) then sy else s.scaleY)
    case Rotation => s
    case Shear =>
      var hx, hy := m[0][1], m[1][0];
      s.(shearX := if ShearRange(hx) then hx else s.shearX,
         shearY := if ShearRange(hy) then hy else s.shearY)
  }

  /**
   * Back-sync inverts the slider-to-matrix build: syncing the block the
   * sliders describe leaves in-range sliders where they are.
   */
  lemma SyncOfBuiltBlock(key: Kind, s: Sliders)
    requires key != Rotation && InRange(s)
    ensures SyncedSliders(key, SliderBlock(key, s), s) == s
  {
  }

  /**
   * Building after back-sync gives the edited block back, whenever the
   * edited block has the shape of its kind and its entries are in range.
   */
  lemma BuildOfSyncedBlock(key: Kind, m: Matrix2, s: Sliders)
    requires key == Scale ==> m[0][1] == 0.0 && m[1][0] == 0.0 && ScaleRange(m[0][0]) && ScaleRange(m[1][1])
    requires key == Shear ==> m[0][0] == 1.0 && m[1][1] == 1.0 && ShearRange(m[0][1]) && ShearRange(m[1][0])
    requires key != Rotation
    ensures SliderBlock(key, SyncedSliders(key, m, s)) == m
  {
    var b := SliderBlock(key, SyncedSliders(key, m, s));
    assert b[0] == m[0] && b[1] == m[1];
  }

  /** An out-of-range entry leaves its slider where it was. */
  lemma SyncIgnoresOutOfRange(m: Matrix2, s: Sliders)
    ensures !ScaleRange(m[0][0]) ==> SyncedSliders(Scale, m, s).scaleX == s.scaleX
    ensures !ScaleRange(m[1][1]) ==> SyncedSliders(Scale, m, s).scaleY == s.scaleY
    ensures !ShearRange(m[0][1]) ==> SyncedSliders(Shear, m, s).shearX == s.shearX
    ensures !ShearRange(m[1][0]) ==> SyncedSliders(Shear, m, s).shearY == s.shearY
  {
  }

  /** Positions i and j exchanged, everything else in place. */
  function Swap<T>(s: seq<T>, i: nat, j: nat): (r: seq<T>)
    requires i < |s| && j < |s|
    ensures |r| == |s| && r[i] == s[j] && r[j] == s[i]
    ensures forall k :: 0 <= k < |s| && k != i && k != j ==> r[k] == s[k]
  {
    s[i := s[j]][j := s[i]]
  }

  /** A swap only permutes: the multiset of entries is unchanged. */
  lemma SwapPermutes<T>(s: seq<T>, i: nat, j: nat)
    requires i < |s| && j < |s|
    ensures multiset(Swap(s, i, j)) == multiset(s)
  {
    var t := s[i := s[j]];
    assert multiset(t) == multiset(s) - multiset{s[i]} + multiset{s[j]};
  }

  /** Swapping twice restores the order. */
  lemma SwapTwice<T>(s: seq<T>, i: nat, j: nat)
    requires i < |s| && j < |s|
    ensures Swap(Swap(s, i, j), i, j) == s
  {
  }

  /** The order after moveOrder(index, direction). */
  function Moved(order: seq<Kind>, index: nat, direction: int): (r: seq<Kind>)
    requires index < |order|
    ensures |r| == |order| && multiset(r) == multiset(order)
    ensures 0 <= index + direction < |order| ==> r == Swap(order, index, index + direction)
    ensures !(0 <= index + direction < |order|) ==> r == order
  {
    var newIndex := index + direction;
    if newIndex < 0 || newIndex >= |order| then order
    else
      SwapPermutes(order, index, newIndex);
      Swap(order, index, newIndex)
  }

  /** Moving an entry up and then back down restores the order. */
  lemma MoveUndo(order: seq<Kind>, index: nat)
    requires 0 < index < |order|
    ensures Moved(Moved(order, index, -1), index - 1, 1) == order
  {
    var once := Moved(order, index, -1);
    assert once == Swap(order, index, index - 1);
    assert Moved(once, index - 1, 1) == Swap(once, index - 1, index);
  }

  /** Why the combined-matrix text was refused. */
  datatype MatrixTextError = NotTwoRows | NotThreeNumbers

  /** A line holds exactly three words, each of which converts to a number. */
  predicate RowReads(line: string, toNumber: string -> Option<real>) {
    var ws := Words(line);
    |ws| == 3 && forall i :: 0 <= i < 3 ==> toNumber(ws[i]).Some?
  }

  /** `row` holds the numbers the three words of `line` convert to. */
  predicate RowValues(line: string, toNumber: string -> Option<real>, row: seq<real>) {
    var ws := Words(line);
    |ws| == 3 && |row| == 3 && forall i :: 0 <= i < 3 ==> toNumber(ws[i]) == Some(row[i])
  }

  /** One row of the combined-matrix text: whitespace-separated words, each converted by Number. */
  function ParseRow(line: string, toNumber: string -> Option<real>): (r: Option<seq<real>>)
    ensures r.Some? <==> RowReads(line, toNumber)
    ensures r.Some? ==> RowValues(line, toNumber, r.value)
  {
    var ws := Words(line);
    if |ws| != 3 then None
    else
      var a, b, c := toNumber(ws[0]), toNumber(ws[1]), toNumber(ws[2]);
      if a.None? || b.None? || c.None? then None
      else Some([a.value, b.value, c.value])
  }

  /**
   * The lines of the combined-matrix text: trimmed, brackets deleted, split
   * at line feeds, each line trimmed, blank lines dropped.
   */
  function MatrixLines(text: string): (ls: seq<string>)
    ensures forall i :: 0 <= i < |ls| ==> Trimmed(ls[i], IsSpace)
  {
    NonBlank(Split(Remove(Strip(text, IsSpace), IsBracket), '\n'))
  }

  /**
   * The combined-matrix apply handler's parser: exactly two non-blank lines
   * of exactly three numbers each, completed with the row [0, 0, 1].
   */
  function ParseCombined(text: string, toNumber: string -> Option<real>): (r: Result<Matrix3, MatrixTextError>)
    ensures r.Ok? ==> IsAffine(r.value)
  {
    var lines := MatrixLines(text);
    if |lines| != 2 then Err(NotTwoRows)
    else
      var r0, r1 := ParseRow(lines[0], toNumber), ParseRow(lines[1], toNumber);
      if r0.None? || r1.None? then Err(NotThreeNumbers)
      else Ok([r0.value, r1.value, [0.0, 0.0, 1.0]])
  }

  /**
   * What the parser accepts: two lines are required, each of exactly three
   * numbers, and an accepted text gives the matrix those numbers spell.
   */
  lemma ParseCombinedCases(text: string, toNumber: string -> Option<real>)
    ensures var r := ParseCombined(text, toNumber); var lines := MatrixLines(text);
      (r == Err(NotTwoRows) <==> |lines| != 2) &&
      (r == Err(NotThreeNumbers) <==> |lines| == 2 && (!RowReads(lines[0], toNumber) || !RowReads(lines[1], toNumber))) &&
      (r.Ok? ==> RowValues(lines[0], toNumber, r.value[0]) && RowValues(lines[1], toNumber, r.value[1]))
  {
  }

  /**
   * updateCombinedMatrixDisplay writes each value with toFixed(3) (`show`)
   * padded to nine columns.
   */
  const DisplayWidth: nat := 9

  /** Deleting the brackets of the display frame leaves its line feeds and the two rows. */
  lemma RemoveFrame(r0: string, r1: string)
    requires Plain(r0) && Plain(r1)
    ensures Remove(Frame(r0, r1), IsBracket) == "\n" + (r0 + ("\n" + (r1 + "\n")))
  {
    var nl := "\n";
    var x5 := nl + "]";
    var x4 := r1 + x5;
    var x3 := nl + x4;
    var x2 := r0 + x3;
    var x1 := nl + x2;
    RemoveAppend(nl, "]", IsBracket);
    assert Remove(x5, IsBracket) == nl;
    RemoveAppend(r1, x5, IsBracket);
    RemoveNone(r1, IsBracket);
    RemoveAppend(nl, x4, IsBracket);
    RemoveAppend(r0, x3, IsBracket);
    RemoveNone(r0, IsBracket);
    RemoveAppend(nl, x2, IsBracket);
    RemoveAppend("[", x1, IsBracket);
  }

  /** The lines the parser finds in the display text are its two rows, stripped. */
  lemma FrameLines(r0: string, r1: string)
    requires Plain(r0) && Plain(r1)
    requires Strip(r0, IsSpace) != [] && Strip(r1, IsSpace) != []
    ensures MatrixLines(Frame(r0, r1)) == [Strip(r0, IsSpace), Strip(r1, IsSpace)]
  {
    var text := Frame(r0, r1);
    assert text[0] == '[' && text[|text| - 1] == ']';
    StripKeepsEnds(text, IsSpace);
    RemoveFrame(r0, r1);
    PlainNoNewline(r0);
    PlainNoNewline(r1);
    SplitFrame(r0, r1);
    NonBlankFrame(r0, r1);
  }

  /** Two lines of three convertible words each parse to the matrix of their numbers. */
  lemma LinesParseTo(text: string, t0: string, t1: string, a0: string, a1: string, a2: string,
                     b0: string, b1: string, b2: string, toNumber: string -> Option<real>)
    requires MatrixLines(text) == [t0, t1]
    requires Words(t0) == [a0, a1, a2] && Words(t1) == [b0, b1, b2]
    requires toNumber(a0).Some? && toNumber(a1).Some? && toNumber(a2).Some?
    requires toNumber(b0).Some? && toNumber(b1).Some? && toNumber(b2).Some?
    ensures ParseCombined(text, toNumber) ==
      Ok([[ValueOf(a0, toNumber), ValueOf(a1, toNumber), ValueOf(a2, toNumber)],
          [ValueOf(b0, toNumber), ValueOf(b1, toNumber), ValueOf(b2, toNumber)],
          [0.0, 0.0, 1.0]])
  {
  }

  /** Two rows whose words are a0 a1 a2 and b0 b1 b2, framed, parse to the matrix of their numbers. */
  lemma FrameParsesTo(r0: string, r1: string, a0: string, a1: string, a2: string,
                      b0: string, b1: string, b2: string, toNumber: string -> Option<real>)
    requires Plain(r0) && Plain(r1)
    requires Strip(r0, IsSpace) != [] && Strip(r1, IsSpace) != []
    requires Words(Strip(r0, IsSpace)) == [a0, a1, a2] && Words(Strip(r1, IsSpace)) == [b0, b1, b2]
    requires toNumber(a0).Some? && toNumber(a1).Some? && toNumber(a2).Some?
    requires toNumber(b0).Some? && toNumber(b1).Some? && toNumber(b2).Some?
    ensures ParseCombined(Frame(r0, r1), toNumber) ==
      Ok([[ValueOf(a0, toNumber), ValueOf(a1, toNumber), ValueOf(a2, toNumber)],
          [ValueOf(b0, toNumber), ValueOf(b1, toNumber), ValueOf(b2, toNumber)],
          [0.0, 0.0, 1.0]])
  {
    FrameLines(r0, r1);
    LinesParseTo(Frame(r0, r1), Strip(r0, IsSpace), Strip(r1, IsSpace), a0, a1, a2, b0, b1, b2, toNumber);
  }

  /**
   * The combined-matrix text the display writes parses back: the parser
   * accepts it and gives the matrix of the values shown.  (The display
   * rounds to three decimals, so these are the shown values.)
   */
  lemma DisplayParses(m: Matrix3, show: real -> string, toNumber: string -> Option<real>)
    requires ReadsBack(m, show, toNumber)
    ensures ParseCombined(MatrixText(m, show, DisplayWidth), toNumber) == Ok(ShownMatrix(m, show, toNumber))
  {
    var a0, a1, a2 := show(m[0][0]), show(m[0][1]), show(m[0][2]);
    var b0, b1, b2 := show(m[1][0]), show(m[1][1]), show(m[1][2]);
    assert Shown(a0) && Shown(a1) && Shown(a2) && Shown(b0) && Shown(b1) && Shown(b2);
    assert toNumber(a0).Some? && toNumber(a1).Some? && toNumber(a2).Some?;
    assert toNumber(b0).Some? && toNumber(b1).Some? && toNumber(b2).Some?;
    RowFacts(a0, a1, a2, DisplayWidth);
    RowFacts(b0, b1, b2, DisplayWidth);
    FrameParsesTo(RowText(a0, a1, a2, DisplayWidth), RowText(b0, b1, b2, DisplayWidth), a0, a1, a2, b0, b1, b2, toNumber);
  }

  /** When the display writes every value exactly, the parser gives the same matrix back. */
  lemma DisplayRoundTrip(m: Matrix3, show: real -> string, toNumber: string -> Option<real>)
    requires IsAffine(m) && ReadsBack(m, show, toNumber)
    requires forall i, j :: 0 <= i < 2 && 0 <= j < 3 ==> toNumber(show(m[i][j])) == Some(m[i][j])
    ensures ParseCombined(MatrixText(m, show, DisplayWidth), toNumber) == Ok(m)
  {
    DisplayParses(m, show, toNumber);
    ShownExactly(m, show, toNumber);
  }

  /**
   * `m` and the canvas `outW` by `outH` show the blocks `ms` composed over
   * `order`, pivoted about the centre of the w-by-h image and placed.
   */
  ghost predicate Rendered(w: real, h: real, ms: map<Kind, Matrix2>, order: seq<Kind>, m: Matrix3, outW: int, outH: int)
    requires Complete(ms)
  {
    PlacedAs(w, h, Pivot(Chain(ms, order), w, h), m, outW, outH)
  }

  class Session {
    var matrices: map<Kind, Matrix2>
    var transformOrder: seq<Kind>
    var combinedMatrix3x3: Matrix3
    var sliders: Sliders
    var viewZoom: real
    var viewOffsetX: real
    var viewOffsetY: real
    var dragStartX: real
    var dragStartY: real
    var isDragging: bool
    /** Whether an image has been opened, and its size in pixels. */
    var hasImage: bool
    var imageW: nat
    var imageH: nat
    /** The size of the image currently shown (the warped output). */
    var outW: int
    var outH: int

    ghost predicate Valid()
      reads this
    {
      Complete(matrices) && IsOrder(transformOrder) && IsAffine(combinedMatrix3x3)
    }

    /** The zoom stays within the range setZoomLevel accepts. */
    predicate ZoomInRange()
      reads this
    {
      0.1 <= viewZoom <= 10.0
    }

    /** The page's initial state: identity blocks, default order, no image. */
    constructor ()
      ensures Valid() && ZoomInRange()
      ensures matrices == IdentityBlocks && transformOrder == DefaultOrder
      ensures combinedMatrix3x3 == Identity && sliders == ResetSliders
      ensures viewZoom == 1.0 && viewOffsetX == 0.0 && viewOffsetY == 0.0 && !isDragging
      ensures !hasImage
    {
      matrices := IdentityBlocks;
      transformOrder := DefaultOrder;
      combinedMatrix3x3 := Identity;
      sliders := ResetSliders;
      viewZoom := 1.0;
      viewOffsetX, viewOffsetY := 0.0, 0.0;
      dragStartX, dragStartY := 0.0, 0.0;
      isDragging := false;
      hasImage := false;
      imageW, imageH := 0, 0;
      outW, outH := 0, 0;
      new;
      ResetBlocks();
      DefaultOrderIsOrder();
    }

    /** Shows the composition of the current blocks (the matrix part of applyFromMatrices). */
    method Recompose()
      requires Valid() && hasImage
      modifies this`combinedMatrix3x3, this`outW, this`outH
      ensures Valid() && Rendered(imageW as real, imageH as real, matrices, transformOrder, combinedMatrix3x3, outW, outH)
    {
      var combined := ComposeOrdered(matrices, transformOrder);
      var full := PivotAboutCentre(combined, imageW as real, imageH as real);
      PivotAffine(combined, imageW as real, imageH as real);
      ShowPlaced(full);
    }

    /** Places an affine matrix on the canvas its bounds give and shows it. */
    method ShowPlaced(full: Matrix3)
      requires IsAffine(full)
      modifies this`combinedMatrix3x3, this`outW, this`outH
      ensures PlacedAs(imageW as real, imageH as real, full, combinedMatrix3x3, outW, outH) && IsAffine(combinedMatrix3x3)
    {
      var combined3, b := Place(imageW as real, imageH as real, full);
      combinedMatrix3x3 := combined3;
      outW, outH := b.outW, b.outH;
    }

    /** applyTransform: rebuild all three blocks from the sliders, then recompose; nothing without an image. */
    method ApplyTransform()
      requires Valid()
      modifies this`matrices, this`combinedMatrix3x3, this`outW, this`outH
      ensures Valid()
      ensures !hasImage ==> unchanged(this)
      ensures hasImage ==> matrices == SliderBlocks(sliders) && Rendered(imageW as real, imageH as real, matrices, transformOrder, combinedMatrix3x3, outW, outH)
    {
      if !hasImage {
        return;
      }
      matrices := SliderBlocks(sliders);
      Recompose();
    }

    /** applyFromMatrices: recompose from the blocks as they are; nothing without an image. */
    method ApplyFromMatrices()
      requires Valid()
      modifies this`combinedMatrix3x3, this`outW, this`outH
      ensures Valid()
      ensures !hasImage ==> unchanged(this)
      ensures hasImage ==> Rendered(imageW as real, imageH as real, matrices, transformOrder, combinedMatrix3x3, outW, outH)
    {
      if !hasImage {
        return;
      }
      Recompose();
    }

    /**
     * A slider moved (or a rotation preset chosen): store the positions
     * and, with an image open, rebuild the blocks from them and re-render.
     */
    method MoveSliders(s: Sliders)
      requires Valid()
      modifies this`sliders, this`matrices, this`combinedMatrix3x3, this`outW, this`outH
      ensures Valid() && sliders == s
      ensures hasImage ==> matrices == SliderBlocks(s) && Rendered(imageW as real, imageH as real, matrices, transformOrder, combinedMatrix3x3, outW, outH)
      ensures !hasImage ==> matrices == old(matrices) && combinedMatrix3x3 == old(combinedMatrix3x3)
      ensures !hasImage ==> outW == old(outW) && outH == old(outH)
    {
      sliders := s;
      ApplyTransform();
    }

    /**
     * moveOrder: swap the entry at `index` with its neighbour in `direction`;
     * a move past either end changes nothing.  The order stays a permutation
     * of the three kinds, and with an image open the studio re-renders from
     * the sliders.
     */
    method MoveOrder(index: nat, direction: int)
      requires Valid() && index < |transformOrder|
      modifies this`transformOrder, this`matrices, this`combinedMatrix3x3, this`outW, this`outH
      ensures Valid()
      ensures transformOrder == Moved(old(transformOrder), index, direction)
      ensures (index + direction < 0 || index + direction >= |old(transformOrder)|) ==> unchanged(this)
      ensures hasImage && 0 <= index + direction < |old(transformOrder)| ==>
        matrices == SliderBlocks(sliders) && Rendered(imageW as real, imageH as real, matrices, transformOrder, combinedMatrix3x3, outW, outH)
      ensures !hasImage ==> matrices == old(matrices) && combinedMatrix3x3 == old(combinedMatrix3x3)
      ensures !hasImage ==> outW == old(outW) && outH == old(outH)
    {
      var newIndex := index + direction;
      if newIndex < 0 || newIndex >= |transformOrder| {
        return;
      }
      SwapPermutes(transformOrder, index, newIndex);
      transformOrder := transformOrder[index := transformOrder[newIndex]][newIndex := transformOrder[index]];
      if hasImage {
        ApplyTransform();
      }
    }

    /**
     * A block's apply button: `parsed` is the block read from its four
     * cells, or None when a cell failed to parse, in which case nothing
     * changes.  Otherwise the block replaces matrices[key] whatever its
     * values, the sliders follow it where in range, and the studio recomposes.
     */
    method ApplyBlock(key: Kind, parsed: Option<Matrix2>)
      requires Valid()
      modifies this`matrices, this`sliders, this`combinedMatrix3x3, this`outW, this`outH
      ensures Valid()
      ensures parsed.None? ==> unchanged(this)
      ensures parsed.Some? ==> matrices == old(matrices)[key := parsed.value]
      ensures parsed.Some? ==> sliders == SyncedSliders(key, parsed.value, old(sliders))
      ensures parsed.Some? && hasImage ==> Rendered(imageW as real, imageH as real, matrices, transformOrder, combinedMatrix3x3, outW, outH)
      ensures parsed.Some? && !hasImage ==> combinedMatrix3x3 == old(combinedMatrix3x3) && outW == old(outW) && outH == old(outH)
    {
      if parsed.None? {
        return;
      }
      matrices := matrices[key := parsed.value];
      sliders := SyncedSliders(key, parsed.value, sliders);
      ApplyFromMatrices();
    }

    /**
     * The combined-matrix apply handler: a text that does not parse changes
     * nothing, nor does any text while no image is open; otherwise the parsed
     * matrix is placed on a canvas that holds the whole image.  The blocks,
     * the order and the sliders are left as they are.
     */
    method ApplyCombined(text: string, toNumber: string -> Option<real>)
      requires Valid()
      modifies this`combinedMatrix3x3, this`outW, this`outH
      ensures Valid()
      ensures ParseCombined(text, toNumber).Err? || !hasImage ==> unchanged(this)
      ensures ParseCombined(text, toNumber).Ok? && hasImage ==>
        PlacedAs(imageW as real, imageH as real, ParseCombined(text, toNumber).value, combinedMatrix3x3, outW, outH)
    {
      var parsed := ParseCombined(text, toNumber);
      ApplyParsed(parsed);
    }

    /** The rest of the combined-matrix handler, once the text has been parsed. */
    method ApplyParsed(parsed: Result<Matrix3, MatrixTextError>)
      requires Valid() && (parsed.Ok? ==> IsAffine(parsed.value))
      modifies this`combinedMatrix3x3, this`outW, this`outH
      ensures Valid()
      ensures parsed.Err? || !hasImage ==> unchanged(this)
      ensures parsed.Ok? && hasImage ==>
        PlacedAs(imageW as real, imageH as real, parsed.value, combinedMatrix3x3, outW, outH)
    {
      if parsed.Err? || !hasImage {
        return;
      }
      ShowPlaced(parsed.value);
    }

    /** setZoomLevel: a zoom outside [0.1, 10] is ignored. */
    method SetZoomLevel(z: real)
      modifies this`viewZoom
      ensures viewZoom == (if 0.1 <= z <= 10.0 then z else old(viewZoom))
      ensures old(ZoomInRange()) ==> ZoomInRange()
    {
      if 0.1 <= z && z <= 10.0 {
        viewZoom := z;
      }
    }

    /** The zoom-in button: 25% closer. */
    method ZoomIn()
      modifies this`viewZoom
      ensures viewZoom == (if 0.1 <= old(viewZoom) * 1.25 <= 10.0 then old(viewZoom) * 1.25 else old(viewZoom))
      ensures old(ZoomInRange()) ==> ZoomInRange()
    {
      SetZoomLevel(viewZoom * 1.25);
    }

    /** The zoom-out button: 20% further. */
    method ZoomOut()
      modifies this`viewZoom
      ensures viewZoom == (if 0.1 <= old(viewZoom) * 0.8 <= 10.0 then old(viewZoom) * 0.8 else old(viewZoom))
      ensures old(ZoomInRange()) ==> ZoomInRange()
    {
      SetZoomLevel(viewZoom * 0.8);
    }

    /** The mouse wheel over the canvas: 5% in on scroll up, 5% out otherwise; nothing without an image. */
    method Wheel(deltaY: real)
      modifies this`viewZoom
      ensures !hasImage ==> unchanged(this)
      ensures hasImage ==> var z := old(viewZoom) * (if deltaY < 0.0 then 1.05 else 0.95);
        viewZoom == (if 0.1 <= z <= 10.0 then z else old(viewZoom))
      ensures old(ZoomInRange()) ==> ZoomInRange()
    {
      if !hasImage {
        return;
      }
      var factor := if deltaY < 0.0 then 1.05 else 0.95;
      SetZoomLevel(viewZoom * factor);
    }

    /** A zoom-percentage button: the zoom is set as given, without the range check, and the pan reset. */
    method PresetZoom(z: real)
      modifies this`viewZoom, this`viewOffsetX, this`viewOffsetY
      ensures viewZoom == z && viewOffsetX == 0.0 && viewOffsetY == 0.0
    {
      viewZoom := z;
      viewOffsetX, viewOffsetY := 0.0, 0.0;
    }

    /** mousedown with the main button starts a drag at the pointer; other buttons do nothing. */
    method MouseDown(button: int, x: real, y: real)
      modifies this`isDragging, this`dragStartX, this`dragStartY
      ensures button == 0 ==> isDragging && dragStartX == x && dragStartY == y
      ensures button != 0 ==> unchanged(this)
    {
      if button == 0 {
        isDragging := true;
        dragStartX, dragStartY := x, y;
      }
    }

    /** mousemove while dragging an image pans the view by the pointer's displacement. */
    method MouseMove(x: real, y: real)
      modifies this`viewOffsetX, this`viewOffsetY, this`dragStartX, this`dragStartY
      ensures !(isDragging && hasImage) ==> unchanged(this)
      ensures isDragging && hasImage ==>
        viewOffsetX == old(viewOffsetX) + (x - old(dragStartX)) &&
        viewOffsetY == old(viewOffsetY) + (y - old(dragStartY)) &&
        dragStartX == x && dragStartY == y
    {
      if !isDragging || !hasImage {
        return;
      }
      viewOffsetX := viewOffsetX + (x - dragStartX);
      viewOffsetY := viewOffsetY + (y - dragStartY);
      dragStartX, dragStartY := x, y;
    }

    /** mouseup or mouseleave ends the drag. */
    method MouseUp()
      modifies this`isDragging
      ensures !isDragging
    {
      isDragging := false;
    }

    /** resetView (also the fit button and the context menu): no pan, 100% zoom. */
    method ResetView()
      modifies this`viewOffsetX, this`viewOffsetY, this`viewZoom
      ensures viewOffsetX == 0.0 && viewOffsetY == 0.0 && viewZoom == 1.0 && ZoomInRange()
    {
      viewOffsetX, viewOffsetY, viewZoom := 0.0, 0.0, 1.0;
    }

    /** The transform part of resetAll: sliders, order, blocks and combined matrix. */
    method ResetTransform()
      modifies this`sliders, this`transformOrder, this`matrices, this`combinedMatrix3x3
      ensures Valid()
      ensures sliders == ResetSliders && transformOrder == DefaultOrder
      ensures matrices == IdentityBlocks && combinedMatrix3x3 == Identity
    {
      sliders := ResetSliders;
      transformOrder := DefaultOrder;
      matrices := IdentityBlocks;
      ResetBlocks();
      DefaultOrderIsOrder();
      combinedMatrix3x3 := Identity;
    }

    /**
     * resetAll: sliders, order, blocks and combined matrix back to their
     * initial values; with an image open, the shown image becomes the
     * original (its size the image's own) and the view is reset.
     */
    method ResetAll()
      modifies this
      ensures Valid()
      ensures hasImage == old(hasImage) && imageW == old(imageW) && imageH == old(imageH)
      ensures isDragging == old(isDragging) && dragStartX == old(dragStartX) && dragStartY == old(dragStartY)
      ensures sliders == ResetSliders && transformOrder == DefaultOrder
      ensures matrices == IdentityBlocks && combinedMatrix3x3 == Identity
      ensures hasImage ==> outW == imageW && outH == imageH && viewZoom == 1.0 && viewOffsetX == 0.0 && viewOffsetY == 0.0
      ensures !hasImage ==> viewZoom == old(viewZoom) && viewOffsetX == old(viewOffsetX) && viewOffsetY == old(viewOffsetY)
      ensures !hasImage ==> outW == old(outW) && outH == old(outH)
    {
      ResetTransform();
      if hasImage {
        outW, outH := imageW, imageH;
        ResetView();
      }
    }

    /** Opening an image: it becomes the original and everything is reset. */
    method OpenImage(w: nat, h: nat)
      modifies this
      ensures Valid() && ZoomInRange()
      ensures hasImage && imageW == w && imageH == h && outW == w && outH == h
      ensures viewZoom == 1.0 && viewOffsetX == 0.0 && viewOffsetY == 0.0
      ensures isDragging == old(isDragging) && dragStartX == old(dragStartX) && dragStartY == old(dragStartY)
      ensures sliders == ResetSliders && transformOrder == DefaultOrder
      ensures matrices == IdentityBlocks && combinedMatrix3x3 == Identity
    {
      hasImage := true;
      imageW, imageH := w, h;
      ResetAll();
    }
  }

  /**
   * After a reset the identity composition is what the studio shows: with
   * the reset blocks, the pivoted fold over the default order is the identity.
   */
  lemma ResetComposesToIdentity(w: real, h: real)
    ensures Complete(IdentityBlocks) && Pivot(Chain(IdentityBlocks, DefaultOrder), w, h) == Identity
  {
    ResetBlocks();
    IdentityBlocksGiveIdentity(IdentityBlocks, DefaultOrder, w, h);
  }
}

=== FILE: wrappers.dfy ===
/** Failure-carrying results shared by the parsers and the inverse. */
module Wrappers {

  datatype Option<+T> = None | Some(value: T)

  datatype Result<+T, +E> = Ok(value: T) | Err(error: E)
}
